=== FILE: README.md ===
# epub-to-audiobook: a Dafny model of the conversion core

`main.py` turns an EPUB book into a folder of MP3 files. Its steps:

1. Read the chapters and clean their text line by line.
2. Cut each chapter into parts at full stops, under a cap of 4096 characters.
3. Number the parts across the whole book.
4. Send every part that has not been converted before to a text-to-speech service, in a process pool.
5. Record the numbers of the parts that succeeded in a JSON progress file, keyed by the book id.

This project models that bookkeeping and proves what it guarantees and where it fails.

| module | file | models |
|---|---|---|
| `Outcomes` | `outcomes.dfy` | `Option` and `Result`, the shape of optional values and of errors |
| `PyStr` | `pystr.dfy` | Python `str.isspace`, `str.strip`, `str.split(sep)`, `sep.join` and `''.join` |
| `Cleaner` | `cleaner.dfy` | `clean_text` |
| `Splitter` | `splitter.dfy` | `split_text_into_parts` |
| `Paths` | `paths.dfy` | `os.path.basename`, `os.path.splitext`, `os.path.join`, and `get_book_id` |
| `ChunkNames` | `chunk_names.dfy` | the chunk file name `chunk_{n:03d}.mp3` and Python's ordering of such names |
| `Conversion` | `conversion.dfy` | `convert_epub_to_audiobook` from the chapter texts on |

The model works as follows:

- The outcome of one text-to-speech call is an oracle `synthesizes: Chunk -> bool`. `pool.map` returns the outcomes in the order of its input.
- The progress file is an `Option<ProgressStore>`: `None` when the file does not exist.
- The job returns three things:
  - the filtered chunk list (`part_args`);
  - the set of audio files written;
  - the progress document it writes, or the error that stopped it before the write.

Some behaviour of the code is easy to misread. The model follows the code:

- **Empty text.** An empty chapter does not give zero parts. It gives one part, `"."`, because `"".split('.')` is `[""]` and that fragment gets its `.` back (`Splitter.EmptyTextGivesDot`).
- **Empty or oversized parts.** The cap is soft and a part can be empty. The first part is empty when the first fragment with its `.` exceeds the cap (`Splitter.OversizedFirstFragment`). A fragment longer than the cap becomes a part of its own, uncut.
- **Stray full stops.** A text that ends in `.` leaves an empty fragment after its last `.`. When that fits beside the last buffer, the last part ends in `..` (`Splitter.ThreeSentencesUnderTwenty`). When the buffer is at or over the cap (over it when it is one oversized fragment), the empty fragment becomes a part of its own, a lone `.` (`Splitter.StrayDotPart`).
- **Result lookup at line 144.** `results[idx]` looks the outcome up by chunk index, not by position in the filtered batch. On a fresh run the two agree. On a resumed run with a gap they do not (see Findings).
- **Chunk numbers above 999.** Nothing stops at 999 chunks: the names just get wider. Past that point sorting the names no longer sorts the chunks (`ChunkNames.ChunkFileNameOrderBreaks`).

## Model

| member | source | states |
|---|---|---|
| PyStr.Strip | main.py:45 | `line.strip()`: the result is never longer than the line and has no white space at either end; `StripSpec` says which piece it is |
| PyStr.StripSpec | main.py:45 | `strip` returns the slice of its input between a prefix and a suffix that are all white space, with no white space at either end of the slice; it yields "" exactly for an all-white-space line |
| PyStr.StripIdempotent | main.py:45 | stripping twice is stripping once |
| PyStr.Split | main.py:44 | `text.split("\n")` always has at least one piece, so `"".split("\n")` is `[""]`; `SplitPiecesNoSep`, `JoinSplit` and `SplitJoin` make it the inverse of join |
| PyStr.JoinLength | main.py:46 | `"\n".join` puts exactly one separator between each two pieces: the result is as long as the pieces together plus one less than their number |
| PyStr.JoinSplit | main.py:44-46 | joining the pieces of `split('\n')` with `'\n'` restores the text |
| PyStr.SplitJoin | main.py:44-46 | splitting the join of separator-free pieces restores the pieces |
| PyStr.SplitPiecesNoSep | main.py:44 | no piece of a split contains the separator |
| Cleaner.CleanLines | main.py:45 | the kept lines are non-empty, stripped, and no more than the input lines; none is kept exactly when every line is blank |
| Cleaner.CleanText | main.py:43-47 | the result is empty exactly when the text is all white space, has no white space at either end, and every newline sits between two non-space characters (no blank lines) |
| Cleaner.CleanTextLines | main.py:43-47 | the lines of the cleaned text are the non-blank input lines, stripped, in their original order |
| Cleaner.CleanTextIdempotent | main.py:43-47 | cleaning a cleaned text changes nothing |
| Cleaner.CleanLinesAppend | main.py:45 | the comprehension keeps lines in order and works line by line: it distributes over concatenation |
| Cleaner.CleanLinesOfClean | main.py:45 | lines that are already non-empty and stripped all survive unchanged |
| Splitter.PackConcat | main.py:83-90 | the buffers the loop flushes, concatenated, are every fragment with its `.` in order: nothing is dropped, duplicated or moved |
| Splitter.PackBound | main.py:84-88 | a flushed buffer is within the cap, or is one fragment that alone exceeds it, or is the initial buffer |
| Splitter.PackFlushRule | main.py:84-88 | a buffer is flushed only for lack of room: every flushed buffer but the last is followed by one that opens with a fragment and its `.`, and that fragment would have taken the earlier buffer over the cap |
| Splitter.RawPartsFlushRule | main.py:82-90 | the same flush rule for the buffers of `split_text_into_parts`, over the sentences of the text |
| Splitter.PackShape | main.py:84-90 | every flushed buffer after the first ends in `.`, and so does the last; the initial buffer is flushed first exactly when the first fragment does not fit beside it |
| Splitter.RawParts | main.py:82-90 | the unstripped parts, concatenated, are the text with one `.` added, and there is at least one |
| Splitter.SplitTextIntoParts | main.py:79-91 | `split_text_into_parts`: there is always a part, and no part has white space at either end; `SplitTextIntoPartsShape`, `SplitRoundTrip` and `RawPartsFlushRule` state the rest |
| Splitter.SplitRoundTrip | main.py:79-91 | each part is the matching unstripped buffer stripped, one for one, and the buffers rebuild the text plus `.`; it gathers `RawParts` (the rebuild, carried by `PackConcat`) and the per-part stripping of `SplitTextIntoParts` |
| Splitter.SplitTextIntoPartsShape | main.py:79-91 | at least one part; the last part and every part after the first end in `.`; the first part is empty exactly when the first fragment with its `.` exceeds the cap; every part is within the cap unless it is that empty first part or a single oversized fragment, stripped |
| Splitter.FitsInOnePart | main.py:82-90 | a text that fits under the cap with its extra `.` is a single part |
| Splitter.EmptyTextGivesDot | main.py:82-90 | the empty text gives the single part `"."` |
| Splitter.OversizedFirstFragment | main.py:84-86 | worked case: `"abc"` under a cap of 2 gives `["", "abc."]`, an empty first part; the general if-and-only-if is the fourth ensures of `SplitTextIntoPartsShape` |
| Splitter.StrayDotPart | main.py:82-90 | worked case: `"ab."` under a cap of 3 gives `["ab.", "."]`, because the empty fragment after the final `.` does not fit beside the full buffer |
| Splitter.ThreeSentencesUnderTwenty | main.py:79-91 | worked case: a three-sentence text under a cap of 20 gives three parts, the last one with a doubled `.` |
| Splitter.DottedJoin | main.py:82-88 | giving every fragment its `.` back is joining with `.` and adding one `.` |
| Paths.RFind | main.py:153 | `rfind` returns the last occurrence of the character, or -1 when there is none |
| Paths.Basename | main.py:153 | the base name is a suffix of the path and has no `/` |
| Paths.BasenameAfterSlash | main.py:153 | the base name is the longest such suffix: what comes before it ends in `/` |
| Paths.SplitExt | main.py:153 | root and extension rebuild the path; the extension is empty or one `.` followed by no `.` and no `/`; it is non-empty exactly when the last component has a `.` with a character other than `.` before it |
| Paths.GetBookId | main.py:152-153 | the book id is a prefix of the base name with no `/`; it differs from the base name exactly when that has an extension, and then the base name continues after the id with a `.` and no further `.`, so exactly the last extension is removed |
| Paths.PathJoinEnds | main.py:101 | `os.path.join(output_dir, name)` ends with `name`, and starts with `output_dir` when `name` is relative |
| Paths.BasenameOfJoin | main.py:101 | the base name of `join(dir, name)` is `name` when `name` has no `/` |
| Paths.BookIdOfEpub | main.py:152-153 | `dir/name.epub` has book id `name` |
| Paths.BookIdOfHidden | main.py:152-153 | `.hidden` keeps its leading dot: its book id is `.hidden` |
| Paths.BookIdOfDoubleExtension | main.py:152-153 | only the last extension goes: `tale.tar.gz` gives `tale.tar` |
| ChunkNames.FormatZeroPad3 | main.py:100 | `format(n, '03d')` is at least three characters and, for `n >= 0`, exactly three or the width of `str(n)` when that is wider; digits only for `n >= 0`, and starts with `-` exactly for a negative `n` |
| ChunkNames.ChunkFileName | main.py:100 | the name is at least 13 characters, `chunk_` then the number then `.mp3`; `ParseChunkFileNameRoundTrip` reads the number back |
| ChunkNames.Decimal | main.py:100 | `str(n)` is digits only, with no leading zero |
| ChunkNames.ParseChunkFileNameRoundTrip | main.py:100 | the number in a chunk's file name reads back as the chunk index plus one, for every index |
| ChunkNames.ChunkFileNameInjective | main.py:100 | two chunk indices share a file name only when they are equal |
| ChunkNames.PaddedThreeDigits | main.py:100 | from 1 to 999 the `03d` field is exactly the three digits of the number |
| ChunkNames.ChunkFileNameWidth | main.py:100 | up to index 998 every name is 13 characters with three digits |
| ChunkNames.ChunkFileNameWidens | main.py:100 | from index 999 on the number needs at least four digits |
| ChunkNames.ChunkFileNamesOrdered | main.py:100 | up to index 998, Python's string order on names is the order of the indices |
| ChunkNames.ChunkFileNameOrderBreaks | main.py:100 | the name of chunk 999, `chunk_1000.mp3`, sorts before that of chunk 100 |
| Conversion.PartsOf | main.py:129 | `split_text_into_parts(chapter, max_text_length)`, with `max_text_length` 4096, gives every chapter at least one part |
| Conversion.ChapterPartsAppend | main.py:127-130 | chapter boundaries leave no trace: the parts of two runs of chapters are the parts of each, one after the other |
| Conversion.ChapterPartsCount | main.py:127-130 | there are at least as many parts as chapters |
| Conversion.AllParts | main.py:127-130 | the chunk list holds every chapter's parts in order, all in the book's directory, numbered 0, 1, 2, ... without a gap or a repeat across chapters |
| Conversion.LoadCompleted | main.py:132-137 | a non-empty list of completed chunks comes only from a resumed run whose progress file exists and holds an entry for this book, and is that entry; and a resumed run whose file holds the book gets exactly that entry |
| Conversion.PendingChunks | main.py:139 | `part_args` is never longer than `all_parts`; `PendingMembers` says exactly which chunks it holds and `PendingAppend` that it keeps their order |
| Conversion.PendingMembers | main.py:139 | a chunk is pending exactly when it is in the list and its index is not completed |
| Conversion.PendingAppend | main.py:139 | the filter keeps the order of the chunks |
| Conversion.PendingNoneCompleted | main.py:137-139 | with nothing completed every chunk is pending |
| Conversion.PendingOfIndexed | main.py:139 | on numbered chunks the pending indices increase, each pending chunk is the chunk its index names, and every chunk whose index is not completed is pending |
| Conversion.PendingIndexSet | main.py:139 | the pending indices are exactly the indices not completed |
| Conversion.PendingAllCompleted | main.py:139 | when every index is completed, nothing is pending |
| Conversion.AsWrittenOutcome | main.py:144 | line 144 as written (`ExtendCompletedAsWritten`): on success the prior list is kept as a prefix; on failure the error is an IndexError for the results' length, raised by a pending chunk whose index is out of Python's range for the results |
| Conversion.SucceededIndices | main.py:144 | the recorded indices are exactly those of pending chunks whose own outcome is a success |
| Conversion.SucceededIncreasing | main.py:144 | successes are recorded in increasing order |
| Conversion.ExtendCompleted | main.py:144 | the corrected update keeps the prior list as a prefix and appends exactly the succeeded indices |
| Conversion.AsWrittenSucceedsIff | main.py:144 | the update as written raises IndexError unless every pending index is a valid Python index into the results, negative ones included |
| Conversion.AsWrittenMatchesCorrected | main.py:139-144 | for a filtered list, the update as written goes through exactly when the pending chunks are numbered 0, 1, 2, ...; then it equals the corrected update |
| Conversion.FreshRunRecordsSuccesses | main.py:137-144 | a run without prior progress records exactly the indices whose chunk succeeded, in increasing order |
| Conversion.TenChunksTwoFailures | main.py:139-144 | worked case: ten chunks with chunks 3 and 7 failing record `[0,1,2,4,5,6,8,9]` |
| Conversion.TwoFailuresRemainPending | main.py:139 | resuming that run leaves chunks 3 and 7 pending |
| Conversion.ResumeAfterGapCrashes | main.py:132-144 | a resumed run with chunk 0 done and anything still pending raises at line 144 |
| Conversion.ResumeAfterTwoFailuresCrashes | main.py:132-144 | resuming the ten-chunk run raises, so chunks 3 and 7 are never recorded |
| Conversion.SaveProgress | main.py:147 | line 147 as written: the document holds this book's key only, and loading the book from it gives back the list saved |
| Conversion.SaveThenLoad | main.py:132-137 | loading after the save returns the book's list, and the empty list for every other book |
| Conversion.SaveProgressMerged | main.py:147 | the corrected save stores the book's list and keeps every other book's key |
| Conversion.MergedSaveKeepsOtherBooks | main.py:147 | after the corrected save, every other book loads what it loaded before |
| Conversion.ResumeAfterCompleteRunIsIdle | main.py:132-147 | resuming after a run that recorded every chunk leaves nothing pending and records the same list again |
| Conversion.OutputPathsDistinct | main.py:100-101 | two chunks with different indices write different files |
| Conversion.WrittenFileIffSucceeded | main.py:100-102 | on chunks with distinct numbers, a pending chunk's audio file is written exactly when its own synthesis succeeded: no other chunk's file lands on the path of a chunk that failed |
| Conversion.ConvertBook | main.py:127-147 | the job as written, for one book and any sentence splitter: the pending chunks are the book's unfinished parts in increasing order, each with its own part and the book's directory; a batch size below one fails before any file is written; the written files are those of the successful chunks; the progress is saved exactly when the pending chunks are numbered from zero, otherwise the job stops with line 144's IndexError for an index past the pool's results, after the files are written; a saved progress it equals the corrected update for this book alone; a run without prior progress records exactly the successful chunks |
| Conversion.ConvertEpubToAudiobook | main.py:116-147 | with the book id and directory of lines 117-118 and the 4096-character splitter: the pending chunks are the book's unfinished parts; a batch size below one fails before any file is written; the written files are those of the successful chunks; the save goes through exactly when the pending chunks are numbered from zero, otherwise the job stops with line 144's IndexError for an index past the pool's results, after the files are written; a save holds the corrected update for this book alone; a run without prior progress records exactly the successful chunks |
| Conversion.CorrectedRecord | main.py:139-144 | with the corrected update, an index is recorded exactly when it was completed before or its chunk was pending and succeeded |
| Conversion.ConvertBookCorrected | main.py:127-147 | the job with both corrections: it always saves for a valid batch size, records the prior progress plus this run's successes, and keeps other books' progress |
| Conversion.ConvertEpubToAudiobookCorrected | main.py:116-147 | the corrected job from the EPUB path: the same pending chunks as the job as written; a batch size below one fails; otherwise the save always goes through, records exactly the prior progress plus this run's successful chunks, and keeps every other book's progress |

## Left out

- Reading the EPUB with ebooklib and BeautifulSoup (main.py:24-41) is not modelled. The chapters arrive as strings, and cleaning them is modelled on its own.
- Listing, displaying and choosing EPUB files, and the command line (main.py:49-76, 156-172), are interactive I/O.
- The OpenAI client, API key, voice and model (main.py:11-15, 94-99) and `stream_to_file` (main.py:102) are foreign calls. Their outcome is the `synthesizes` oracle.
- `process_chunk` turning any exception into `False` (main.py:107-114) is folded into the oracle. A failing call that left a partial file on disk is not modelled, so `written` holds only the files of successful chunks.
- The process pool (main.py:141-142) is not modelled as concurrent. Only its contract is kept: one outcome per input, in input order, and an error when there are fewer than one processes.
- JSON reading and writing, `os.path.exists` and `os.makedirs` (main.py:119, 132-135, 146-147) are I/O. A missing file is `None`. A corrupt or non-object JSON file, which the code does not handle and which would raise, is not modelled.
- Progress entries are taken as lists of integers. Other JSON values under the book's key are not modelled.
- Printing (main.py:103, 113, 123-125, 149) has no effect on the bookkeeping.
- `audiobook_path` and `sample_rate` (main.py:18-19) are not used by the modelled code.
- Paths.GetBookId: only POSIX path rules are modelled. On Windows, `ntpath` also splits on `\` and drive letters.
- Paths.SplitExt: models `posixpath.splitext` for a single-character separator and extension mark, as `get_book_id` uses it.
- PyStr.StripSpec: `IsSpace` lists the characters Python's `str.isspace` accepts. The Unicode database behind `isspace` is not modelled beyond that list.

## Findings

| source | as written | input that shows it | evidently intended | confidence | as-written member | corrected member |
|---|---|---|---|---|---|---|
| main.py:144 | `results[idx]` uses the chunk's global index into the results of the filtered batch | ten chunks; chunks 3 and 7 fail, so `[0,1,2,4,5,6,8,9]` is saved; on resume chunks 3 and 7 are pending, the pool returns two results, and `results[3]` raises IndexError, so the failed chunks are never recorded | each outcome is read at the chunk's position in `part_args` | not executed; high | Conversion.ResumeAfterTwoFailuresCrashes | Conversion.AsWrittenMatchesCorrected |
| main.py:147 | the progress file is overwritten with a document that holds this book's entry only | save progress for book `a`, then convert book `b`: loading `a` afterwards gives `[]` | read the document on disk, replace this book's entry, and write it all back | not executed; medium | Conversion.SaveThenLoad | Conversion.MergedSaveKeepsOtherBooks |

About the first row:

- `Conversion.ExtendCompletedAsWritten` is line 144 as written.
- `Conversion.ExtendCompleted` is the corrected update, which pairs each outcome with its own chunk.
- `Conversion.AsWrittenMatchesCorrected` proves that the two agree exactly when the pending chunks are numbered from zero, which is always the case on a fresh run. Otherwise the code as written raises.

About the second row:

- `Conversion.SaveProgress` is line 147 as written.
- `Conversion.SaveProgressMerged` is the corrected save.

`Conversion.ConvertBook` and `Conversion.ConvertEpubToAudiobook` model the job as written. `Conversion.ConvertBookCorrected` and `Conversion.ConvertEpubToAudiobookCorrected` use both corrections.

=== FILE: chunk_names.dfy ===
/** The audio file name of a chunk (main.py:100): "chunk_", the one-based
    chunk number zero-padded to three digits, ".mp3"; and Python's ordering
    of such names. */
module ChunkNames {
  import opened Outcomes

  predicate IsDigit(c: char) {
    '0' <= c <= '9'
  }

  predicate AllDigits(s: string) {
    forall k :: 0 <= k < |s| ==> IsDigit(s[k])
  }

  function DigitChar(d: nat): (c: char)
    requires d < 10
    ensures IsDigit(c)
  {
    ('0' as int + d) as char
  }

  function DigitValue(c: char): (d: nat)
    requires IsDigit(c)
    ensures d < 10
  {
    c as int - '0' as int
  }

  /** `str(n)` for `n >= 0`: the decimal digits, most significant first, with
      no leading zero. */
  function Decimal(n: nat): (s: string)
    ensures |s| >= 1 && AllDigits(s)
    ensures |s| > 1 ==> s[0] != '0'
    decreases n
  {
    if n < 10 then [DigitChar(n)] else Decimal(n / 10) + [DigitChar(n % 10)]
  }

  function Zeros(n: nat): (s: string)
    ensures |s| == n && AllDigits(s)
    decreases n
  {
    if n == 0 then [] else "0" + Zeros(n - 1)
  }

  /** `format(n, '03d')`: the sign, if any, then the digits, padded with
      '0' after the sign to a total width of at least 3. */
  function FormatZeroPad3(n: int): (r: string)
    ensures |r| >= 3
    ensures n >= 0 ==> AllDigits(r)
    ensures n < 0 <==> r[0] == '-'
    ensures n >= 0 ==> |r| == if |Decimal(n)| < 3 then 3 else |Decimal(n)|
  {
    var sign := if n < 0 then "-" else "";
    var digits := Decimal(if n < 0 then -n else n);
    var fill := 3 - |sign| - |digits|;
    sign + (if fill > 0 then Zeros(fill) else "") + digits
  }

  /** The output file name of the chunk with (zero-based) index `index`. */
  function ChunkFileName(index: int): (name: string)
    ensures |name| >= 13
    ensures name[..6] == "chunk_" && name[|name| - 4..] == ".mp3"
  {
    "chunk_" + FormatZeroPad3(index + 1) + ".mp3"
  }

  /** The number a string of decimal digits denotes; leading zeros count
      for nothing. */
  function DecimalValue(s: string): nat
    requires AllDigits(s)
    decreases |s|
  {
    if s == [] then 0 else DecimalValue(s[..|s| - 1]) * 10 + DigitValue(s[|s| - 1])
  }

  /** Reads a chunk index back from a file name of the form above. */
  function ParseChunkFileName(name: string): Option<int> {
    if |name| > 10 && name[..6] == "chunk_" && name[|name| - 4..] == ".mp3" && AllDigits(name[6..|name| - 4]) then
      Some(DecimalValue(name[6..|name| - 4]) - 1)
    else
      None
  }

  lemma {:induction false} DecimalValueOfDecimal(n: nat)
    ensures DecimalValue(Decimal(n)) == n
    decreases n
  {
    if n >= 10 {
      DecimalValueOfDecimal(n / 10);
      var s := Decimal(n);
      assert s[..|s| - 1] == Decimal(n / 10);
    }
  }

  lemma {:induction false} DecimalValueLeadingZero(s: string)
    requires AllDigits(s)
    ensures DecimalValue("0" + s) == DecimalValue(s)
    decreases |s|
  {
    if s != [] {
      var t := "0" + s;
      assert t[..|t| - 1] == "0" + s[..|s| - 1];
      DecimalValueLeadingZero(s[..|s| - 1]);
    }
  }

  lemma {:induction false} DecimalValueZeros(k: nat, s: string)
    requires AllDigits(s)
    ensures DecimalValue(Zeros(k) + s) == DecimalValue(s)
    decreases k
  {
    if k > 0 {
      DecimalValueZeros(k - 1, s);
      assert Zeros(k) + s == "0" + (Zeros(k - 1) + s);
      DecimalValueLeadingZero(Zeros(k - 1) + s);
    } else {
      assert Zeros(k) + s == s;
    }
  }

  /** The name of every chunk reads back as its index, so no two chunks
      share a file name. */
  lemma ParseChunkFileNameRoundTrip(index: int)
    requires index >= 0
    ensures ParseChunkFileName(ChunkFileName(index)) == Some(index)
  {
    var padded := FormatZeroPad3(index + 1);
    PaddedValue(index + 1);
    SlicesOfConcat("chunk_", padded, ".mp3", ChunkFileName(index));
  }

  /** For a positive number the padded form is digits only and denotes it. */
  lemma PaddedValue(n: int)
    requires n >= 1
    ensures |FormatZeroPad3(n)| >= 1 && AllDigits(FormatZeroPad3(n))
    ensures DecimalValue(FormatZeroPad3(n)) == n
  {
    var digits := Decimal(n);
    DecimalValueOfDecimal(n);
    if 3 - |digits| > 0 {
      DecimalValueZeros(3 - |digits|, digits);
      assert FormatZeroPad3(n) == Zeros(3 - |digits|) + digits;
    } else {
      assert FormatZeroPad3(n) == digits;
    }
  }

  /** The three slices of a string made of three pieces. */
  lemma SlicesOfConcat(p: string, m: string, q: string, name: string)
    requires name == p + m + q
    ensures |name| == |p| + |m| + |q|
    ensures name[..|p|] == p && name[|name| - |q|..] == q && name[|p|..|name| - |q|] == m
  {
  }

  lemma ChunkFileNameInjective(i: int, j: int)
    requires i >= 0 && j >= 0
    requires ChunkFileName(i) == ChunkFileName(j)
    ensures i == j
  {
    ParseChunkFileNameRoundTrip(i);
    ParseChunkFileNameRoundTrip(j);
  }

  /** From 1 to 999 the padded number is exactly its three digits. */
  lemma PaddedThreeDigits(n: int)
    requires 1 <= n <= 999
    ensures FormatZeroPad3(n) == [DigitChar(n / 100), DigitChar(n / 10 % 10), DigitChar(n % 10)]
  {
    if n < 10 {
      assert Zeros(2) == "00";
    } else if n < 100 {
      assert Decimal(n) == [DigitChar(n / 10), DigitChar(n % 10)];
      assert Zeros(1) == "0";
    } else {
      assert Decimal(n / 10) == [DigitChar(n / 100), DigitChar(n / 10 % 10)];
      assert Decimal(n) == [DigitChar(n / 100), DigitChar(n / 10 % 10), DigitChar(n % 10)];
    }
  }

  /** Up to index 998 every name has the same length and a three-digit number. */
  lemma ChunkFileNameWidth(index: int)
    requires 0 <= index <= 998
    ensures |FormatZeroPad3(index + 1)| == 3 && AllDigits(FormatZeroPad3(index + 1))
    ensures |ChunkFileName(index)| == 13
  {
    PaddedThreeDigits(index + 1);
  }

  /** From index 999 on the number needs four or more digits. */
  lemma ChunkFileNameWidens(index: int)
    requires index >= 999
    ensures |FormatZeroPad3(index + 1)| >= 4
  {
    var n := index + 1;
    DecimalLength(n);
    DecimalLength(n / 10);
    DecimalLength(n / 100);
  }

  /** One more decimal digit for every factor of ten. */
  lemma DecimalLength(n: nat)
    requires n >= 10
    ensures |Decimal(n)| == |Decimal(n / 10)| + 1
  {
  }

  /** Python's `<` on strings: the first differing code point decides, and a
      proper prefix comes first. */
  predicate LexLess(a: string, b: string)
    decreases |a|
  {
    if a == [] then b != []
    else if b == [] then false
    else if a[0] != b[0] then a[0] < b[0]
    else LexLess(a[1..], b[1..])
  }

  lemma {:induction false} LexLessCommonPrefix(p: string, a: string, b: string)
    ensures LexLess(p + a, p + b) == LexLess(a, b)
    decreases |p|
  {
    if p == [] {
      assert p + a == a && p + b == b;
    } else {
      assert (p + a)[1..] == p[1..] + a;
      assert (p + b)[1..] == p[1..] + b;
      LexLessCommonPrefix(p[1..], a, b);
    }
  }

  /** Three digits then a common suffix compare as the three-digit numbers
      they spell. */
  lemma ThreeDigitsOrdered(a1: nat, a2: nat, a3: nat, b1: nat, b2: nat, b3: nat, suffix: string)
    requires a1 < 10 && a2 < 10 && a3 < 10 && b1 < 10 && b2 < 10 && b3 < 10
    requires a1 * 100 + a2 * 10 + a3 < b1 * 100 + b2 * 10 + b3
    ensures LexLess([DigitChar(a1), DigitChar(a2), DigitChar(a3)] + suffix,
                    [DigitChar(b1), DigitChar(b2), DigitChar(b3)] + suffix)
  {
    var a := [DigitChar(a1), DigitChar(a2), DigitChar(a3)] + suffix;
    var b := [DigitChar(b1), DigitChar(b2), DigitChar(b3)] + suffix;
    if a1 == b1 {
      assert a[1..] == [DigitChar(a2), DigitChar(a3)] + suffix;
      assert b[1..] == [DigitChar(b2), DigitChar(b3)] + suffix;
      if a2 == b2 {
        assert a[1..][1..] == [DigitChar(a3)] + suffix;
        assert b[1..][1..] == [DigitChar(b3)] + suffix;
      }
    }
  }

  /** A number below a thousand is its three decimal digits. */
  lemma ThreeDigitValue(n: int)
    requires 0 <= n <= 999
    ensures n / 100 < 10 && n / 10 % 10 < 10 && n % 10 < 10
    ensures n == n / 100 * 100 + n / 10 % 10 * 10 + n % 10
  {
  }

  lemma ChunkFileNameShape(index: int)
    ensures ChunkFileName(index) == "chunk_" + (FormatZeroPad3(index + 1) + ".mp3")
  {
  }

  /** Up to index 998, sorting the file names sorts the chunks by index. */
  lemma ChunkFileNamesOrdered(i: int, j: int)
    requires 0 <= i < j <= 998
    ensures LexLess(ChunkFileName(i), ChunkFileName(j))
  {
    var m := i + 1;
    var n := j + 1;
    PaddedThreeDigits(m);
    PaddedThreeDigits(n);
    ThreeDigitValue(m);
    ThreeDigitValue(n);
    ThreeDigitsOrdered(m / 100, m / 10 % 10, m % 10, n / 100, n / 10 % 10, n % 10, ".mp3");
    ChunkFileNameShape(i);
    ChunkFileNameShape(j);
    LexLessCommonPrefix("chunk_", FormatZeroPad3(m) + ".mp3", FormatZeroPad3(n) + ".mp3");
  }

  /** At index 999 the width grows and the order breaks: the thousandth
      chunk's name sorts before the hundred-and-first's. */
  lemma ChunkFileNameOrderBreaks()
    ensures LexLess(ChunkFileName(999), ChunkFileName(100))
  {
    ThousandthName();
    HundredAndFirstName();
    assert "chunk_1000.mp3" == "chunk_10" + "00.mp3";
    assert "chunk_101.mp3" == "chunk_10" + "1.mp3";
    LexLessCommonPrefix("chunk_10", "00.mp3", "1.mp3");
  }

  lemma ThousandthName()
    ensures ChunkFileName(999) == "chunk_1000.mp3"
  {
    ThousandPadded();
  }

  lemma ThousandPadded()
    ensures FormatZeroPad3(1000) == "1000"
  {
    ThousandDigits();
  }

  lemma ThousandDigits()
    ensures Decimal(1000) == "1000"
  {
    DecimalStep(10, 1, "1");
    DecimalStep(100, 10, "10");
    DecimalStep(1000, 100, "100");
  }

  /** One step of `Decimal` on a multiple of ten, for worked examples. */
  lemma DecimalStep(n: nat, m: nat, digits: string)
    requires n == m * 10 && m >= 1 && Decimal(m) == digits
    ensures Decimal(n) == digits + "0"
  {
    assert n / 10 == m && n % 10 == 0;
  }

  lemma HundredAndFirstName()
    ensures ChunkFileName(100) == "chunk_101.mp3"
  {
    PaddedThreeDigits(101);
  }
}

=== FILE: cleaner.dfy ===
/** The line cleaner `clean_text` (main.py:43-47): split the text at '\n',
    strip every line, drop the lines that strip to nothing, and join what is
    left with '\n'. */
module Cleaner {
  import opened PyStr

  /** No white space at either end, nothing empty, no `sep` inside. */
  predicate CleanLine(l: string, sep: char) {
    l != [] && Trimmed(l) && sep !in l
  }

  /** `[line.strip() for line in lines if line.strip()]` (main.py:45). */
  function CleanLines(lines: seq<string>): (r: seq<string>)
    ensures |r| <= |lines|
    ensures forall k :: 0 <= k < |r| ==> r[k] != [] && Trimmed(r[k])
    ensures r == [] <==> forall k :: 0 <= k < |lines| ==> AllSpace(lines[k])
    decreases |lines|
  {
    if lines == [] then []
    else
      var s := Strip(lines[0]);
      StripSpec(lines[0]);
      var rest := CleanLines(lines[1..]);
      assert forall k :: 0 < k < |lines| ==> lines[k] == lines[1..][k - 1];
      if s != [] then [s] + rest else rest
  }

  /** `clean_text(text)`. */
  function CleanText(text: string): (r: string)
    ensures r == [] <==> AllSpace(text)
    ensures Trimmed(r)
    ensures forall k :: 0 <= k < |r| && r[k] == '\n' ==>
              0 < k < |r| - 1 && !IsSpace(r[k - 1]) && !IsSpace(r[k + 1])
  {
    var lines := Split(text, '\n');
    var cleaned := CleanLines(lines);
    SplitPiecesNoSep(text, '\n');
    CleanLinesNoSep(lines, '\n');
    JoinCleanLines(cleaned, '\n');
    JoinSplit(text, '\n');
    AllSpaceJoin(lines, '\n');
    Join(cleaned, '\n')
  }

  /** Lines free of a separator stay free of it once cleaned. */
  lemma {:induction false} CleanLinesNoSep(lines: seq<string>, sep: char)
    requires forall k :: 0 <= k < |lines| ==> sep !in lines[k]
    ensures forall k :: 0 <= k < |CleanLines(lines)| ==> CleanLine(CleanLines(lines)[k], sep)
    decreases |lines|
  {
    if lines != [] {
      CleanLinesNoSep(lines[1..], sep);
    }
  }

  /** A white-space separator between clean lines: the join is empty only
      for no lines, has no white space at either end, and every separator in
      it sits between two characters that are not white space. */
  lemma {:induction false} JoinCleanLines(lines: seq<string>, sep: char)
    requires IsSpace(sep)
    requires forall k :: 0 <= k < |lines| ==> CleanLine(lines[k], sep)
    ensures Join(lines, sep) == [] <==> lines == []
    ensures Trimmed(Join(lines, sep))
    ensures forall k :: 0 <= k < |Join(lines, sep)| && Join(lines, sep)[k] == sep ==>
              && 0 < k < |Join(lines, sep)| - 1
              && !IsSpace(Join(lines, sep)[k - 1])
              && !IsSpace(Join(lines, sep)[k + 1])
    decreases |lines|
  {
    if |lines| == 1 {
      assert CleanLine(lines[0], sep);
    } else if |lines| > 1 {
      var l := lines[0];
      var rest := Join(lines[1..], sep);
      JoinCleanLines(lines[1..], sep);
      assert CleanLine(l, sep);
      var r := Join(lines, sep);
      assert r == l + [sep] + rest;
      forall k | 0 <= k < |r| && r[k] == sep
        ensures 0 < k < |r| - 1 && !IsSpace(r[k - 1]) && !IsSpace(r[k + 1])
      {
        if k > |l| {
          assert r[k] == rest[k - |l| - 1];
          assert r[k - 1] == rest[k - |l| - 2];
          assert r[k + 1] == rest[k - |l|];
        }
      }
    }
  }

  /** A string joined with a white-space separator is all white space
      exactly when every piece is. */
  lemma {:induction false} AllSpaceJoin(parts: seq<string>, sep: char)
    requires IsSpace(sep)
    ensures AllSpace(Join(parts, sep)) <==> forall k :: 0 <= k < |parts| ==> AllSpace(parts[k])
    decreases |parts|
  {
    if |parts| > 1 {
      AllSpaceJoin(parts[1..], sep);
      var r := Join(parts, sep);
      var rest := Join(parts[1..], sep);
      assert r == parts[0] + [sep] + rest;
      if AllSpace(r) {
        assert forall k :: 0 <= k < |parts[0]| ==> r[k] == parts[0][k];
        assert forall k :: 0 <= k < |rest| ==> r[|parts[0]| + 1 + k] == rest[k];
        assert forall k :: 1 <= k < |parts| ==> parts[k] == parts[1..][k - 1];
      }
      if forall k :: 0 <= k < |parts| ==> AllSpace(parts[k]) {
        assert AllSpace(parts[0]);
        assert forall k :: 0 <= k < |parts| - 1 ==> parts[1..][k] == parts[k + 1];
      }
    }
  }

  /** Cleaning distributes over concatenation of line lists: the order of
      the surviving lines is the order of the input lines. */
  lemma {:induction false} CleanLinesAppend(a: seq<string>, b: seq<string>)
    ensures CleanLines(a + b) == CleanLines(a) + CleanLines(b)
    decreases |a|
  {
    if a == [] {
      assert a + b == b;
    } else {
      assert (a + b)[1..] == a[1..] + b;
      CleanLinesAppend(a[1..], b);
    }
  }

  /** A single line survives, stripped, exactly when it is not all white space. */
  lemma CleanLinesSingle(line: string)
    ensures CleanLines([line]) == if AllSpace(line) then [] else [Strip(line)]
  {
    assert [line][1..] == [];
  }

  /** Lines that are already clean are kept as they are. */
  lemma {:induction false} CleanLinesOfClean(lines: seq<string>)
    requires forall k :: 0 <= k < |lines| ==> lines[k] != [] && Trimmed(lines[k])
    ensures CleanLines(lines) == lines
    decreases |lines|
  {
    if lines != [] {
      StripTrimmed(lines[0]);
      CleanLinesOfClean(lines[1..]);
    }
  }

  /** The lines of the cleaned text are the input lines that are not blank,
      each stripped, in their original order. */
  lemma CleanTextLines(text: string)
    requires CleanText(text) != []
    ensures Split(CleanText(text), '\n') == CleanLines(Split(text, '\n'))
  {
    var cleaned := CleanLines(Split(text, '\n'));
    SplitPiecesNoSep(text, '\n');
    CleanLinesNoSep(Split(text, '\n'), '\n');
    SplitJoin(cleaned, '\n');
  }

  /** Cleaning a cleaned text changes nothing. */
  lemma CleanTextIdempotent(text: string)
    ensures CleanText(CleanText(text)) == CleanText(text)
  {
    var once := CleanText(text);
    if once == [] {
      assert Split([], '\n') == [[]];
    } else {
      CleanTextLines(text);
      var cleaned := CleanLines(Split(text, '\n'));
      CleanLinesOfClean(cleaned);
    }
  }
}

=== FILE: conversion.dfy ===
/** The bookkeeping of `convert_epub_to_audiobook` (main.py:116-149): global
    chunk numbering across chapters (lines 127-130), the resume filter
    (line 139), the progress update after the pool has run (line 144) and the
    progress record written at the end (line 147).

    Reading the book, the text-to-speech call and the JSON file are outside
    the model: the chapters arrive as strings, the progress file as an
    optional map, and the outcome of synthesizing a chunk as the oracle
    `synthesizes`. */
module Conversion {
  import opened Outcomes
  import opened PyStr
  import opened Splitter
  import opened Paths
  import opened ChunkNames

  /** `max_text_length` (main.py:21). */
  const MaxTextLength := 4096

  /** One entry of `all_parts`: the tuple `(part, book_output_dir, index)`. */
  datatype Chunk = Chunk(text: string, outputDir: string, index: int)

  /** The progress document: book id to the list of completed chunk indices. */
  type ProgressStore = map<string, seq<int>>

  datatype ConvertError =
    | InvalidBatchSize(batchSize: int)                     // `multiprocessing.Pool` refuses fewer than one process
    | ResultIndexOutOfRange(index: int, resultCount: nat)  // `results[idx]` at line 144 raises IndexError

  predicate StrictlyIncreasing(s: seq<int>) {
    forall i, j :: 0 <= i < j < |s| ==> s[i] < s[j]
  }

  function Indices(chunks: seq<Chunk>): (r: seq<int>)
    ensures |r| == |chunks| && forall j :: 0 <= j < |chunks| ==> r[j] == chunks[j].index
  {
    seq(|chunks|, j requires 0 <= j < |chunks| => chunks[j].index)
  }

  /** The chunks are numbered `base`, `base + 1`, ... in order. */
  predicate IndexedFrom(chunks: seq<Chunk>, base: int) {
    forall k :: 0 <= k < |chunks| ==> chunks[k].index == base + k
  }

  // ---------------------------------------------------------------------
  // Global numbering (lines 127-130)
  // ---------------------------------------------------------------------

  /** `split_text_into_parts(text, max_text_length)` (line 128). */
  function PartsOf(text: string): (parts: seq<string>)
    ensures parts != []
  {
    SplitTextIntoPartsShape(text, MaxTextLength);
    SplitTextIntoParts(text, MaxTextLength)
  }

  /** The parts of every chapter, chapter after chapter, each chapter cut by
      `split`. */
  function ChapterParts(chapters: seq<string>, split: string -> seq<string>): seq<string>
    decreases |chapters|
  {
    if chapters == [] then []
    else ChapterParts(chapters[..|chapters| - 1], split) + split(chapters[|chapters| - 1])
  }

  /** Chapter boundaries leave no trace in the part list: the parts of two
      runs of chapters are the parts of each, one after the other. */
  lemma {:induction false} ChapterPartsAppend(a: seq<string>, b: seq<string>, split: string -> seq<string>)
    ensures ChapterParts(a + b, split) == ChapterParts(a, split) + ChapterParts(b, split)
    decreases |b|
  {
    if b == [] {
      assert a + b == a;
    } else {
      var c := a + b;
      var front := b[..|b| - 1];
      var last := split(b[|b| - 1]);
      assert c[..|c| - 1] == a + front;
      assert c[|c| - 1] == b[|b| - 1];
      assert ChapterParts(c, split) == ChapterParts(a + front, split) + last;
      assert ChapterParts(b, split) == ChapterParts(front, split) + last;
      ChapterPartsAppend(a, front, split);
    }
  }

  /** Every chapter gives at least one part. */
  lemma {:induction false} ChapterPartsCount(chapters: seq<string>)
    ensures |ChapterParts(chapters, PartsOf)| >= |chapters|
    decreases |chapters|
  {
    if chapters != [] {
      ChapterPartsCount(chapters[..|chapters| - 1]);
      assert |PartsOf(chapters[|chapters| - 1])| >= 1;
    }
  }

  /** The loop at lines 127-130: each chapter's parts are appended with index
      `len(all_parts) + i`, `len(all_parts)` taken before the `extend`. */
  method AllParts(chapters: seq<string>, split: string -> seq<string>, bookDir: string) returns (allParts: seq<Chunk>)
    ensures |allParts| == |ChapterParts(chapters, split)|
    ensures IndexedFrom(allParts, 0)
    ensures forall k :: 0 <= k < |allParts| ==>
              allParts[k].text == ChapterParts(chapters, split)[k] && allParts[k].outputDir == bookDir
  {
    allParts := [];
    var c := 0;
    while c < |chapters|
      invariant 0 <= c <= |chapters|
      invariant |allParts| == |ChapterParts(chapters[..c], split)|
      invariant forall k :: 0 <= k < |allParts| ==>
                  allParts[k] == Chunk(ChapterParts(chapters[..c], split)[k], bookDir, k)
    {
      var parts := split(chapters[c]);
      var base := |allParts|;
      allParts := allParts + seq(|parts|, i requires 0 <= i < |parts| => Chunk(parts[i], bookDir, base + i));
      assert chapters[..c + 1][..c] == chapters[..c];
      c := c + 1;
    }
    assert chapters[..c] == chapters;
  }

  // ---------------------------------------------------------------------
  // Resume filter (lines 132-139)
  // ---------------------------------------------------------------------

  /** `completed_chunks` (lines 132-137): the book's list from the progress
      file when resuming and the file exists, otherwise nothing. */
  function LoadCompleted(resume: bool, progressFile: Option<ProgressStore>, bookId: string): (completed: seq<int>)
    ensures completed != [] ==>
              resume && progressFile.Some? && bookId in progressFile.value && completed == progressFile.value[bookId]
    ensures resume && progressFile.Some? && bookId in progressFile.value ==> completed == progressFile.value[bookId]
  {
    if resume && progressFile.Some? then
      if bookId in progressFile.value then progressFile.value[bookId] else []
    else []
  }

  /** `part_args` (line 139): the chunks whose index is not completed. */
  function PendingChunks(allParts: seq<Chunk>, completed: seq<int>): (pending: seq<Chunk>)
    ensures |pending| <= |allParts|
    decreases |allParts|
  {
    if allParts == [] then []
    else
      var rest := PendingChunks(allParts[1..], completed);
      if allParts[0].index in completed then rest else [allParts[0]] + rest
  }

  /** The pending chunks are the chunks whose index is not completed. */
  lemma {:induction false} PendingMembers(allParts: seq<Chunk>, completed: seq<int>)
    ensures forall c :: c in PendingChunks(allParts, completed) <==> c in allParts && c.index !in completed
    decreases |allParts|
  {
    if allParts != [] {
      PendingMembers(allParts[1..], completed);
      assert forall c :: c in allParts <==> c == allParts[0] || c in allParts[1..];
    }
  }

  /** The filter keeps the order of the chunks: it distributes over `+`. */
  lemma {:induction false} PendingAppend(a: seq<Chunk>, b: seq<Chunk>, completed: seq<int>)
    ensures PendingChunks(a + b, completed) == PendingChunks(a, completed) + PendingChunks(b, completed)
    decreases |a|
  {
    if a == [] {
      assert a + b == b;
    } else {
      assert (a + b)[1..] == a[1..] + b;
      PendingAppend(a[1..], b, completed);
    }
  }

  /** With nothing completed every chunk is pending. */
  lemma {:induction false} PendingNoneCompleted(allParts: seq<Chunk>)
    ensures PendingChunks(allParts, []) == allParts
    decreases |allParts|
  {
    if allParts != [] {
      PendingNoneCompleted(allParts[1..]);
    }
  }

  /** On numbered chunks the pending ones are those whose number is not
      completed, each where its number says, in increasing order; with the
      completed numbers they cover every number. */
  lemma PendingOfIndexed(allParts: seq<Chunk>, completed: seq<int>, base: int)
    requires IndexedFrom(allParts, base)
    ensures StrictlyIncreasing(Indices(PendingChunks(allParts, completed)))
    ensures forall j :: 0 <= j < |PendingChunks(allParts, completed)| ==>
              && base <= PendingChunks(allParts, completed)[j].index < base + |allParts|
              && allParts[PendingChunks(allParts, completed)[j].index - base] == PendingChunks(allParts, completed)[j]
              && PendingChunks(allParts, completed)[j].index !in completed
    ensures forall k :: 0 <= k < |allParts| && base + k !in completed ==> allParts[k] in PendingChunks(allParts, completed)
  {
    PendingIncreasing(allParts, completed, base);
    PendingPlaced(allParts, completed, base);
    PendingCovers(allParts, completed, base);
  }

  /** Each pending chunk is the numbered chunk its number names, and that
      number is not completed. */
  lemma {:induction false} PendingPlaced(allParts: seq<Chunk>, completed: seq<int>, base: int)
    requires IndexedFrom(allParts, base)
    ensures forall j :: 0 <= j < |PendingChunks(allParts, completed)| ==>
              && base <= PendingChunks(allParts, completed)[j].index < base + |allParts|
              && allParts[PendingChunks(allParts, completed)[j].index - base] == PendingChunks(allParts, completed)[j]
              && PendingChunks(allParts, completed)[j].index !in completed
    decreases |allParts|
  {
    if allParts != [] {
      var rest := PendingChunks(allParts[1..], completed);
      assert IndexedFrom(allParts[1..], base + 1);
      PendingPlaced(allParts[1..], completed, base + 1);
      forall j | 0 <= j < |rest|
        ensures allParts[rest[j].index - base] == rest[j]
      {
        assert allParts[1..][rest[j].index - (base + 1)] == rest[j];
      }
      if allParts[0].index !in completed {
        assert PendingChunks(allParts, completed) == [allParts[0]] + rest;
      }
    }
  }

  /** Every numbered chunk whose number is not completed is pending. */
  lemma PendingCovers(allParts: seq<Chunk>, completed: seq<int>, base: int)
    requires IndexedFrom(allParts, base)
    ensures forall k :: 0 <= k < |allParts| && base + k !in completed ==> allParts[k] in PendingChunks(allParts, completed)
  {
    PendingMembers(allParts, completed);
    forall k | 0 <= k < |allParts| && base + k !in completed
      ensures allParts[k] in PendingChunks(allParts, completed)
    {
      assert allParts[k] in allParts;
    }
  }

  /** The filter keeps numbered chunks in increasing order, none below the
      first number. */
  lemma {:induction false} PendingIncreasing(allParts: seq<Chunk>, completed: seq<int>, base: int)
    requires IndexedFrom(allParts, base)
    ensures forall j :: 0 <= j < |PendingChunks(allParts, completed)| ==> base <= PendingChunks(allParts, completed)[j].index
    ensures StrictlyIncreasing(Indices(PendingChunks(allParts, completed)))
    decreases |allParts|
  {
    if allParts != [] {
      var rest := PendingChunks(allParts[1..], completed);
      assert IndexedFrom(allParts[1..], base + 1);
      PendingIncreasing(allParts[1..], completed, base + 1);
      if allParts[0].index !in completed {
        var pending := [allParts[0]] + rest;
        assert PendingChunks(allParts, completed) == pending;
        forall i, j | 0 <= i < j < |pending|
          ensures pending[i].index < pending[j].index
        {
          assert pending[j] == rest[j - 1];
          if i > 0 {
            assert pending[i] == rest[i - 1];
            assert Indices(rest)[i - 1] < Indices(rest)[j - 1];
          }
        }
      }
    }
  }

  /** Once every chunk's number is completed, nothing is pending. */
  lemma {:induction false} PendingAllCompleted(allParts: seq<Chunk>, completed: seq<int>)
    requires forall k :: 0 <= k < |allParts| ==> allParts[k].index in completed
    ensures PendingChunks(allParts, completed) == []
    decreases |allParts|
  {
    if allParts != [] {
      assert forall k :: 0 <= k < |allParts[1..]| ==> allParts[1..][k] == allParts[k + 1];
      PendingAllCompleted(allParts[1..], completed);
    }
  }

  // ---------------------------------------------------------------------
  // Progress update (lines 141-144)
  // ---------------------------------------------------------------------

  /** `pool.map(process_chunk, part_args)`: one outcome per pending chunk, in
      the order of `part_args`. */
  function PoolMap(pending: seq<Chunk>, synthesizes: Chunk -> bool): seq<bool> {
    seq(|pending|, j requires 0 <= j < |pending| => synthesizes(pending[j]))
  }

  /** Python's `results[idx]`: a negative index counts from the end; outside
      `-len(results) .. len(results) - 1` it raises IndexError. */
  function PyIndex(results: seq<bool>, idx: int): Option<bool> {
    if 0 <= idx < |results| then Some(results[idx])
    else if -|results| <= idx < 0 then Some(results[|results| + idx])
    else None
  }

  /** Line 144 as written: the outcome of a pending chunk is looked up with
      the chunk's own index, not with its position in `part_args`. The
      generator is consumed in order, so the first index out of range raises
      and nothing is saved. */
  function ExtendCompletedAsWritten(completed: seq<int>, pending: seq<Chunk>, results: seq<bool>): Result<seq<int>, ConvertError>
    decreases |pending|
  {
    if pending == [] then Success(completed)
    else
      match PyIndex(results, pending[0].index)
      case None => Failure(ResultIndexOutOfRange(pending[0].index, |results|))
      case Some(ok) =>
        ExtendCompletedAsWritten(if ok then completed + [pending[0].index] else completed, pending[1..], results)
  }

  /** What line 144 as written can end in: on success the prior list is
      kept as a prefix; on failure the error is an IndexError for the
      results' length, raised by a pending chunk whose index Python rejects. */
  lemma {:induction false} AsWrittenOutcome(completed: seq<int>, pending: seq<Chunk>, results: seq<bool>)
    ensures ExtendCompletedAsWritten(completed, pending, results).Success? ==>
              completed <= ExtendCompletedAsWritten(completed, pending, results).value
    ensures ExtendCompletedAsWritten(completed, pending, results).Failure? ==>
              var e := ExtendCompletedAsWritten(completed, pending, results).error;
              && e.ResultIndexOutOfRange? && e.resultCount == |results|
              && exists j :: 0 <= j < |pending| && pending[j].index == e.index && PyIndex(results, e.index).None?
    decreases |pending|
  {
    if pending != [] && PyIndex(results, pending[0].index).Some? {
      var ok := PyIndex(results, pending[0].index).value;
      var next := if ok then completed + [pending[0].index] else completed;
      AsWrittenOutcome(next, pending[1..], results);
      var r := ExtendCompletedAsWritten(next, pending[1..], results);
      if r.Failure? {
        var j :| 0 <= j < |pending[1..]| && pending[1..][j].index == r.error.index && PyIndex(results, r.error.index).None?;
        assert pending[j + 1] == pending[1..][j];
      }
    }
  }

  /** The indices of the pending chunks whose own outcome is a success. */
  function SucceededIndices(pending: seq<Chunk>, results: seq<bool>): (done: seq<int>)
    requires |results| == |pending|
    ensures |done| <= |pending|
    ensures forall x :: x in done <==> exists j :: 0 <= j < |pending| && results[j] && pending[j].index == x
    decreases |pending|
  {
    if pending == [] then []
    else
      var rest := SucceededIndices(pending[1..], results[1..]);
      assert forall j :: 0 < j < |pending| ==> pending[j] == pending[1..][j - 1] && results[j] == results[1..][j - 1];
      (if results[0] then [pending[0].index] else []) + rest
  }

  /** The update with every outcome paired with its own chunk: the prior
      list, then the indices of the chunks that succeeded this run. */
  function ExtendCompleted(completed: seq<int>, pending: seq<Chunk>, results: seq<bool>): (extended: seq<int>)
    requires |results| == |pending|
    ensures |completed| <= |extended| <= |completed| + |pending|
    ensures extended[..|completed|] == completed
    ensures forall x :: x in extended[|completed|..] <==> exists j :: 0 <= j < |pending| && results[j] && pending[j].index == x
  {
    var done := SucceededIndices(pending, results);
    assert (completed + done)[|completed|..] == done;
    completed + done
  }

  /** Successes are recorded in the order of the pending chunks. */
  lemma {:induction false} SucceededIncreasing(pending: seq<Chunk>, results: seq<bool>)
    requires |results| == |pending|
    requires StrictlyIncreasing(Indices(pending))
    ensures StrictlyIncreasing(SucceededIndices(pending, results))
    decreases |pending|
  {
    if pending != [] {
      assert Indices(pending[1..]) == Indices(pending)[1..];
      SucceededIncreasing(pending[1..], results[1..]);
      var rest := SucceededIndices(pending[1..], results[1..]);
      forall x | x in rest
        ensures pending[0].index < x
      {
        var j :| 0 <= j < |pending[1..]| && results[1..][j] && pending[1..][j].index == x;
        assert Indices(pending)[0] < Indices(pending)[j + 1];
      }
      if results[0] {
        var done := [pending[0].index] + rest;
        forall i, j | 0 <= i < j < |done|
          ensures done[i] < done[j]
        {
          if i == 0 {
            assert done[j] == rest[j - 1];
            assert rest[j - 1] in rest;
          } else {
            assert done[i] == rest[i - 1] && done[j] == rest[j - 1];
          }
        }
      }
    }
  }

  /** The as-written update goes through exactly when every pending index
      is a valid Python index into the results. */
  lemma {:induction false} AsWrittenSucceedsIff(completed: seq<int>, pending: seq<Chunk>, results: seq<bool>)
    ensures ExtendCompletedAsWritten(completed, pending, results).Success?
        <==> forall j :: 0 <= j < |pending| ==> -|results| <= pending[j].index < |results|
    decreases |pending|
  {
    if pending != [] {
      var idx := pending[0].index;
      if PyIndex(results, idx).Some? {
        var ok := PyIndex(results, idx).value;
        AsWrittenSucceedsIff(if ok then completed + [idx] else completed, pending[1..], results);
        assert forall j :: 0 < j < |pending| ==> pending[j] == pending[1..][j - 1];
      }
    }
  }

  /** Where a chunk's index is its position (shifted by `offset`), looking
      the outcome up by index is looking it up by position. */
  lemma {:induction false} AsWrittenPositional(completed: seq<int>, pending: seq<Chunk>, results: seq<bool>, offset: nat)
    requires IndexedFrom(pending, offset)
    requires offset + |pending| <= |results|
    ensures ExtendCompletedAsWritten(completed, pending, results)
         == Success(completed + SucceededIndices(pending, results[offset..offset + |pending|]))
    decreases |pending|
  {
    var window := results[offset..offset + |pending|];
    if pending == [] {
      assert completed + SucceededIndices(pending, window) == completed;
    } else {
      var ok := results[offset];
      var next := if ok then completed + [offset] else completed;
      assert IndexedFrom(pending[1..], offset + 1);
      AsWrittenPositional(next, pending[1..], results, offset + 1);
      assert window[1..] == results[offset + 1..offset + 1 + |pending[1..]|];
      assert window[0] == ok;
      var rest := SucceededIndices(pending[1..], window[1..]);
      assert SucceededIndices(pending, window) == (if ok then [offset] else []) + rest;
      assert next + rest == completed + ((if ok then [offset] else []) + rest);
    }
  }

  /** A strictly increasing list of `n` naturals below `n` is `0 .. n - 1`. */
  lemma IncreasingBelowLength(s: seq<int>)
    requires StrictlyIncreasing(s)
    requires forall j :: 0 <= j < |s| ==> 0 <= s[j] < |s|
    ensures forall j :: 0 <= j < |s| ==> s[j] == j
  {
    forall j | 0 <= j < |s|
      ensures s[j] == j
    {
      IncreasingAtLeast(s, j);
      IncreasingAtMost(s, j);
    }
  }

  lemma {:induction false} IncreasingAtLeast(s: seq<int>, j: nat)
    requires StrictlyIncreasing(s)
    requires j < |s| && s[0] >= 0
    ensures s[j] >= j
    decreases j
  {
    if j > 0 {
      IncreasingAtLeast(s, j - 1);
    }
  }

  lemma {:induction false} IncreasingAtMost(s: seq<int>, j: nat)
    requires StrictlyIncreasing(s)
    requires j < |s| && s[|s| - 1] < |s|
    ensures s[j] <= j
    decreases |s| - j
  {
    if j < |s| - 1 {
      IncreasingAtMost(s, j + 1);
    }
  }

  /** Line 144 against the corrected update, for the pending list line 139
      produces (increasing, non-negative indices) and one outcome per pending
      chunk: the as-written update goes through exactly when the pending
      chunks are numbered by their positions, and then it agrees with the
      corrected one; otherwise it raises. */
  lemma AsWrittenMatchesCorrected(completed: seq<int>, pending: seq<Chunk>, results: seq<bool>)
    requires |results| == |pending|
    requires StrictlyIncreasing(Indices(pending))
    requires forall j :: 0 <= j < |pending| ==> pending[j].index >= 0
    ensures ExtendCompletedAsWritten(completed, pending, results).Success? <==> IndexedFrom(pending, 0)
    ensures ExtendCompletedAsWritten(completed, pending, results).Success?
        ==> ExtendCompletedAsWritten(completed, pending, results).value == ExtendCompleted(completed, pending, results)
  {
    AsWrittenSucceedsIff(completed, pending, results);
    if ExtendCompletedAsWritten(completed, pending, results).Success? {
      IncreasingBelowLength(Indices(pending));
    }
    if IndexedFrom(pending, 0) {
      AsWrittenPositional(completed, pending, results, 0);
      assert results[0..|pending|] == results;
    }
  }

  /** A list is fixed by its elements once it is strictly increasing. */
  lemma {:induction false} IncreasingDetermined(a: seq<int>, b: seq<int>)
    requires StrictlyIncreasing(a) && StrictlyIncreasing(b)
    requires forall x :: x in a <==> x in b
    ensures a == b
    decreases |a|
  {
    if a != [] || b != [] {
      assert a != [] && b != [] by {
        if a != [] {
          assert a[0] in a;
        }
        if b != [] {
          assert b[0] in b;
        }
      }
      HeadIsLeast(a, b[0]);
      HeadIsLeast(b, a[0]);
      forall x
        ensures x in a[1..] <==> x in b[1..]
      {
        TailMembers(a, x);
        TailMembers(b, x);
      }
      IncreasingDetermined(a[1..], b[1..]);
      assert a == [a[0]] + a[1..] && b == [b[0]] + b[1..];
    }
  }

  lemma HeadIsLeast(s: seq<int>, x: int)
    requires StrictlyIncreasing(s) && x in s
    ensures s[0] <= x
  {
  }

  /** In a strictly increasing list the tail holds the elements above the head. */
  lemma TailMembers(s: seq<int>, x: int)
    requires StrictlyIncreasing(s) && s != []
    ensures x in s[1..] <==> x in s && x != s[0]
  {
    if x in s[1..] {
      var i :| 0 <= i < |s[1..]| && s[1..][i] == x;
      assert s[0] < s[i + 1];
    }
    if x in s && x != s[0] {
      var i :| 0 <= i < |s| && s[i] == x;
      assert s[1..][i - 1] == x;
    }
  }

  /** A run without prior progress records exactly the indices whose chunk
      succeeded, in increasing order and without repeats. */
  lemma FreshRunRecordsSuccesses(allParts: seq<Chunk>, results: seq<bool>)
    requires IndexedFrom(allParts, 0)
    requires |results| == |allParts|
    ensures PendingChunks(allParts, []) == allParts
    ensures ExtendCompletedAsWritten([], allParts, results) == Success(SucceededIndices(allParts, results))
    ensures StrictlyIncreasing(SucceededIndices(allParts, results))
    ensures forall x :: x in SucceededIndices(allParts, results) <==> 0 <= x < |allParts| && results[x]
  {
    PendingNoneCompleted(allParts);
    AsWrittenPositional([], allParts, results, 0);
    assert results[0..|allParts|] == results;
    assert [] + SucceededIndices(allParts, results) == SucceededIndices(allParts, results);
    SucceededIncreasing(allParts, results);
  }

  /** Ten chunks, the fourth and the eighth failing: the run records the
      other eight. */
  lemma TenChunksTwoFailures(allParts: seq<Chunk>)
    requires |allParts| == 10 && IndexedFrom(allParts, 0)
    ensures ExtendCompletedAsWritten([], PendingChunks(allParts, []), seq(10, k => k != 3 && k != 7))
         == Success([0, 1, 2, 4, 5, 6, 8, 9])
  {
    var results := seq(10, k => k != 3 && k != 7);
    FreshRunRecordsSuccesses(allParts, results);
    AllButThreeAndSeven(SucceededIndices(allParts, results), results);
  }

  lemma AllButThreeAndSeven(done: seq<int>, results: seq<bool>)
    requires results == seq(10, k => k != 3 && k != 7)
    requires StrictlyIncreasing(done)
    requires forall x :: x in done <==> 0 <= x < |results| && results[x]
    ensures done == [0, 1, 2, 4, 5, 6, 8, 9]
  {
    var expected := [0, 1, 2, 4, 5, 6, 8, 9];
    assert forall x :: x in expected <==> 0 <= x < 10 && x != 3 && x != 7;
    assert forall x :: 0 <= x < 10 ==> (results[x] <==> x != 3 && x != 7);
    IncreasingDetermined(done, expected);
  }

  /** After that run, chunks 3 and 7 are the ones left pending. */
  lemma TwoFailuresRemainPending(allParts: seq<Chunk>)
    requires |allParts| == 10 && IndexedFrom(allParts, 0)
    ensures Indices(PendingChunks(allParts, [0, 1, 2, 4, 5, 6, 8, 9])) == [3, 7]
  {
    var completed := [0, 1, 2, 4, 5, 6, 8, 9];
    PendingIndexSet(allParts, completed);
    PendingIncreasing(allParts, completed, 0);
    assert forall x :: x in [3, 7] <==> 0 <= x < 10 && x !in completed;
    IncreasingDetermined(Indices(PendingChunks(allParts, completed)), [3, 7]);
  }

  /** On chunks numbered from zero, the pending numbers are the numbers
      that are not completed. */
  lemma PendingIndexSet(allParts: seq<Chunk>, completed: seq<int>)
    requires IndexedFrom(allParts, 0)
    ensures forall x :: x in Indices(PendingChunks(allParts, completed)) <==> 0 <= x < |allParts| && x !in completed
  {
    var pending := PendingChunks(allParts, completed);
    var indices := Indices(pending);
    PendingOfIndexed(allParts, completed, 0);
    forall x
      ensures x in indices <==> 0 <= x < |allParts| && x !in completed
    {
      if 0 <= x < |allParts| && x !in completed {
        assert allParts[x] in pending;
        var j :| 0 <= j < |pending| && pending[j] == allParts[x];
        assert indices[j] == x;
      }
      if x in indices {
        var j :| 0 <= j < |indices| && indices[j] == x;
      }
    }
  }

  /** Resuming after chunk 0 succeeded while some later chunk did not always
      raises at line 144: the first pending chunk's index is at least one,
      and the pool returns fewer results than that for the same filter. */
  lemma ResumeAfterGapCrashes(allParts: seq<Chunk>, completed: seq<int>, results: seq<bool>)
    requires IndexedFrom(allParts, 0)
    requires 0 in completed
    requires PendingChunks(allParts, completed) != []
    requires |results| == |PendingChunks(allParts, completed)|
    ensures ExtendCompletedAsWritten(completed, PendingChunks(allParts, completed), results).Failure?
  {
    var pending := PendingChunks(allParts, completed);
    PendingOfIndexed(allParts, completed, 0);
    AsWrittenMatchesCorrected(completed, pending, results);
    assert pending[0].index !in completed;
  }

  /** The ten-chunk run above, resumed: chunks 3 and 7 are pending, the pool
      returns two results, and `results[3]` raises, so the failed chunks are
      never recorded however often the run is resumed. */
  lemma ResumeAfterTwoFailuresCrashes(allParts: seq<Chunk>, results: seq<bool>)
    requires |allParts| == 10 && IndexedFrom(allParts, 0)
    requires |results| == |PendingChunks(allParts, [0, 1, 2, 4, 5, 6, 8, 9])|
    ensures ExtendCompletedAsWritten([0, 1, 2, 4, 5, 6, 8, 9], PendingChunks(allParts, [0, 1, 2, 4, 5, 6, 8, 9]), results).Failure?
  {
    var completed := [0, 1, 2, 4, 5, 6, 8, 9];
    assert allParts[3].index == 3 && 3 !in completed;
    assert allParts[3] in allParts;
    PendingMembers(allParts, completed);
    assert 0 in completed;
    ResumeAfterGapCrashes(allParts, completed, results);
  }

  // ---------------------------------------------------------------------
  // Saving progress (lines 146-147)
  // ---------------------------------------------------------------------

  /** Line 147 as written: the document written holds this book only. */
  function SaveProgress(bookId: string, completed: seq<int>): (store: ProgressStore)
    ensures store.Keys == {bookId}
    ensures LoadCompleted(true, Some(store), bookId) == completed
  {
    map[bookId := completed]
  }

  /** Loading the book just saved gives back its list; every other book's
      progress is gone. */
  lemma SaveThenLoad(bookId: string, completed: seq<int>, other: string)
    requires other != bookId
    ensures LoadCompleted(true, Some(SaveProgress(bookId, completed)), bookId) == completed
    ensures LoadCompleted(true, Some(SaveProgress(bookId, completed)), other) == []
  {
  }

  /** The save the progress store is meant to do: replace this book's entry
      in the document already on disk and keep the others. */
  function SaveProgressMerged(progressFile: Option<ProgressStore>, bookId: string, completed: seq<int>): (store: ProgressStore)
    ensures bookId in store && store[bookId] == completed
    ensures progressFile.Some? ==> store.Keys == progressFile.value.Keys + {bookId}
    ensures progressFile.None? ==> store.Keys == {bookId}
  {
    var previous := if progressFile.Some? then progressFile.value else map[];
    previous[bookId := completed]
  }

  /** The merged save keeps every other book's progress. */
  lemma MergedSaveKeepsOtherBooks(progressFile: Option<ProgressStore>, bookId: string, completed: seq<int>, other: string)
    requires other != bookId
    ensures LoadCompleted(true, Some(SaveProgressMerged(progressFile, bookId, completed)), bookId) == completed
    ensures LoadCompleted(true, Some(SaveProgressMerged(progressFile, bookId, completed)), other)
         == LoadCompleted(true, progressFile, other)
  {
  }

  /** A resumed run after one that recorded every chunk has nothing pending,
      so it makes no backend call and records the same list again. */
  lemma ResumeAfterCompleteRunIsIdle(allParts: seq<Chunk>, bookId: string, completed: seq<int>)
    requires IndexedFrom(allParts, 0)
    requires forall k :: 0 <= k < |allParts| ==> k in completed
    ensures PendingChunks(allParts, LoadCompleted(true, Some(SaveProgress(bookId, completed)), bookId)) == []
    ensures ExtendCompletedAsWritten(LoadCompleted(true, Some(SaveProgress(bookId, completed)), bookId), [], []) == Success(completed)
  {
    assert LoadCompleted(true, Some(SaveProgress(bookId, completed)), bookId) == completed;
    PendingAllCompleted(allParts, completed);
  }

  // ---------------------------------------------------------------------
  // The whole job
  // ---------------------------------------------------------------------

  /** `book_output_dir` (lines 117-118). */
  function BookOutputDir(outputDir: string, epubPath: string): string {
    PathJoin(outputDir, GetBookId(epubPath))
  }

  /** The file a chunk's audio is written to (lines 100-102). */
  function OutputPath(chunk: Chunk): string {
    PathJoin(chunk.outputDir, ChunkFileName(chunk.index))
  }

  /** Two numbered chunks never write to the same file. */
  lemma OutputPathsDistinct(c: Chunk, d: Chunk)
    requires c.index >= 0 && d.index >= 0 && c.index != d.index
    ensures OutputPath(c) != OutputPath(d)
  {
    ChunkNameHasNoSlash(c.index);
    ChunkNameHasNoSlash(d.index);
    BasenameOfJoin(c.outputDir, ChunkFileName(c.index));
    BasenameOfJoin(d.outputDir, ChunkFileName(d.index));
    if ChunkFileName(c.index) == ChunkFileName(d.index) {
      ChunkFileNameInjective(c.index, d.index);
    }
  }

  lemma ChunkNameHasNoSlash(index: int)
    requires index >= 0
    ensures '/' !in ChunkFileName(index)
  {
    var digits := FormatZeroPad3(index + 1);
    assert AllDigits(digits);
    assert ChunkFileName(index) == "chunk_" + digits + ".mp3";
  }

  /** `pending` is the resume filter's output for the book's parts: the
      chunks whose number is not completed, each carrying its part and the
      book's directory, every such chunk present, in increasing order. */
  predicate PendingOf(pending: seq<Chunk>, parts: seq<string>, bookDir: string, completed: seq<int>) {
    && (forall j :: 0 <= j < |pending| ==>
          && 0 <= pending[j].index < |parts|
          && pending[j] == Chunk(parts[pending[j].index], bookDir, pending[j].index)
          && pending[j].index !in completed)
    && (forall k :: 0 <= k < |parts| && k !in completed ==> Chunk(parts[k], bookDir, k) in pending)
    && StrictlyIncreasing(Indices(pending))
  }

  /** `done` lists, in increasing order, exactly the numbers of the book's
      parts whose synthesis succeeded. */
  predicate RecordsSuccesses(done: seq<int>, parts: seq<string>, bookDir: string, synthesizes: Chunk -> bool) {
    && StrictlyIncreasing(done)
    && (forall x :: x in done ==> 0 <= x < |parts| && synthesizes(Chunk(parts[x], bookDir, x)))
    && (forall x :: 0 <= x < |parts| && synthesizes(Chunk(parts[x], bookDir, x)) ==> x in done)
  }

  /** The chunks `AllParts` builds are numbered from zero, so the filter
      selects them as `PendingOf` says. */
  lemma PendingOfBook(allParts: seq<Chunk>, parts: seq<string>, bookDir: string, completed: seq<int>)
    requires |allParts| == |parts| && IndexedFrom(allParts, 0)
    requires forall k :: 0 <= k < |allParts| ==> allParts[k].text == parts[k] && allParts[k].outputDir == bookDir
    ensures PendingOf(PendingChunks(allParts, completed), parts, bookDir, completed)
  {
    var pending := PendingChunks(allParts, completed);
    PendingOfIndexed(allParts, completed, 0);
    forall j | 0 <= j < |pending|
      ensures pending[j] == Chunk(parts[pending[j].index], bookDir, pending[j].index)
    {
      assert allParts[pending[j].index] == pending[j];
    }
    forall k | 0 <= k < |parts| && k !in completed
      ensures Chunk(parts[k], bookDir, k) in pending
    {
      assert allParts[k] == Chunk(parts[k], bookDir, k);
    }
  }

  /** The fresh-run guarantee for the chunks `AllParts` builds. */
  lemma FreshRunOfBook(allParts: seq<Chunk>, parts: seq<string>, bookDir: string, synthesizes: Chunk -> bool)
    requires |allParts| == |parts| && IndexedFrom(allParts, 0)
    requires forall k :: 0 <= k < |allParts| ==> allParts[k].text == parts[k] && allParts[k].outputDir == bookDir
    ensures PendingChunks(allParts, []) == allParts
    ensures ExtendCompletedAsWritten([], allParts, PoolMap(allParts, synthesizes))
         == Success(ExtendCompleted([], allParts, PoolMap(allParts, synthesizes)))
    ensures RecordsSuccesses(ExtendCompleted([], allParts, PoolMap(allParts, synthesizes)), parts, bookDir, synthesizes)
  {
    var results := PoolMap(allParts, synthesizes);
    FreshRunRecordsSuccesses(allParts, results);
    var done := SucceededIndices(allParts, results);
    assert ExtendCompleted([], allParts, results) == done;
    forall x
      ensures x in done <==> 0 <= x < |parts| && synthesizes(Chunk(parts[x], bookDir, x))
    {
      if 0 <= x < |parts| {
        assert allParts[x] == Chunk(parts[x], bookDir, x);
      }
    }
  }

  /** The audio files written: one per pending chunk that succeeded. */
  function WrittenFiles(pending: seq<Chunk>, results: seq<bool>): set<string>
    requires |results| == |pending|
  {
    set j | 0 <= j < |pending| && results[j] :: OutputPath(pending[j])
  }

  /** On chunks with distinct numbers, a pending chunk's audio file is
      written exactly when its own synthesis succeeded: no other chunk's
      file lands on the path of a chunk that failed. */
  lemma WrittenFileIffSucceeded(pending: seq<Chunk>, results: seq<bool>)
    requires |results| == |pending|
    requires forall j :: 0 <= j < |pending| ==> pending[j].index >= 0
    requires forall i, j :: 0 <= i < j < |pending| ==> pending[i].index != pending[j].index
    ensures forall j :: 0 <= j < |pending| ==> (OutputPath(pending[j]) in WrittenFiles(pending, results) <==> results[j])
  {
    forall j | 0 <= j < |pending| && OutputPath(pending[j]) in WrittenFiles(pending, results)
      ensures results[j]
    {
      var i :| 0 <= i < |pending| && results[i] && OutputPath(pending[i]) == OutputPath(pending[j]);
      if i != j {
        OutputPathsDistinct(pending[i], pending[j]);
      }
    }
  }

  /** Lines 127-147 for one book, its id and output directory given and each
      chapter cut by `split`: number the parts, filter them against the
      loaded progress, run the pool, update and save the progress. `pending`
      is `part_args`, `written` the audio files written and `saved` the
      progress document written, or the exception that stopped the job
      before it was written. */
  method ConvertBook(
    bookId: string, bookDir: string, batchSize: int, resume: bool, chapters: seq<string>,
    progressFile: Option<ProgressStore>, split: string -> seq<string>, synthesizes: Chunk -> bool)
    returns (pending: seq<Chunk>, written: set<string>, saved: Result<ProgressStore, ConvertError>)
    ensures PendingOf(pending, ChapterParts(chapters, split), bookDir, LoadCompleted(resume, progressFile, bookId))
    ensures batchSize < 1 ==> written == {} && saved == Failure(InvalidBatchSize(batchSize))
    ensures batchSize >= 1 ==>
              forall p :: p in written <==> exists j :: 0 <= j < |pending| && synthesizes(pending[j]) && p == OutputPath(pending[j])
    ensures batchSize >= 1 ==> (saved.Success? <==> IndexedFrom(pending, 0))
    ensures batchSize >= 1 && saved.Failure? ==> saved.error.ResultIndexOutOfRange? && saved.error.resultCount == |pending|
    ensures saved.Success? ==>
              saved.value == SaveProgress(bookId,
                ExtendCompleted(LoadCompleted(resume, progressFile, bookId), pending, PoolMap(pending, synthesizes)))
    ensures batchSize >= 1 && LoadCompleted(resume, progressFile, bookId) == [] ==>
              && saved.Success?
              && saved.value.Keys == {bookId}
              && RecordsSuccesses(saved.value[bookId], ChapterParts(chapters, split), bookDir, synthesizes)
  {
    var allParts := AllParts(chapters, split, bookDir);
    var completed := LoadCompleted(resume, progressFile, bookId);
    pending := PendingChunks(allParts, completed);
    PendingOfBook(allParts, ChapterParts(chapters, split), bookDir, completed);
    if batchSize < 1 {
      written := {};
      saved := Failure(InvalidBatchSize(batchSize));
      return;
    }
    var results := PoolMap(pending, synthesizes);
    written := WrittenFiles(pending, results);
    var extended := ExtendCompletedAsWritten(completed, pending, results);
    AsWrittenMatchesCorrected(completed, pending, results);
    AsWrittenOutcome(completed, pending, results);
    if extended.Success? {
      saved := Success(SaveProgress(bookId, extended.value));
    } else {
      saved := Failure(extended.error);
    }
    if completed == [] {
      FreshRunOfBook(allParts, ChapterParts(chapters, split), bookDir, synthesizes);
    }
  }

  /** `convert_epub_to_audiobook` from the chapters on: the book id and the
      output directory of lines 117-118, then the job above with the
      sentence splitter of line 129. */
  method ConvertEpubToAudiobook(
    epubPath: string, outputDir: string, batchSize: int, resume: bool,
    chapters: seq<string>, progressFile: Option<ProgressStore>, synthesizes: Chunk -> bool)
    returns (pending: seq<Chunk>, written: set<string>, saved: Result<ProgressStore, ConvertError>)
    ensures PendingOf(pending, ChapterParts(chapters, PartsOf), BookOutputDir(outputDir, epubPath),
                      LoadCompleted(resume, progressFile, GetBookId(epubPath)))
    ensures batchSize < 1 ==> written == {} && saved == Failure(InvalidBatchSize(batchSize))
    ensures batchSize >= 1 ==>
              forall p :: p in written <==> exists j :: 0 <= j < |pending| && synthesizes(pending[j]) && p == OutputPath(pending[j])
    ensures batchSize >= 1 ==> (saved.Success? <==> IndexedFrom(pending, 0))
    ensures batchSize >= 1 && saved.Failure? ==> saved.error.ResultIndexOutOfRange? && saved.error.resultCount == |pending|
    ensures saved.Success? ==>
              saved.value == SaveProgress(GetBookId(epubPath),
                ExtendCompleted(LoadCompleted(resume, progressFile, GetBookId(epubPath)), pending, PoolMap(pending, synthesizes)))
    ensures batchSize >= 1 && LoadCompleted(resume, progressFile, GetBookId(epubPath)) == [] ==>
              && saved.Success?
              && saved.value.Keys == {GetBookId(epubPath)}
              && RecordsSuccesses(saved.value[GetBookId(epubPath)], ChapterParts(chapters, PartsOf),
                                  BookOutputDir(outputDir, epubPath), synthesizes)
  {
    var bookId := GetBookId(epubPath);
    var bookDir := PathJoin(outputDir, bookId);
    pending, written, saved := ConvertBook(bookId, bookDir, batchSize, resume, chapters, progressFile, PartsOf, synthesizes);
  }

  /** Every number in the corrected record: completed before, or a part of
      the book that was pending and succeeded. */
  lemma CorrectedRecord(prior: seq<int>, pending: seq<Chunk>, parts: seq<string>, bookDir: string, synthesizes: Chunk -> bool)
    requires PendingOf(pending, parts, bookDir, prior)
    ensures forall x :: x in ExtendCompleted(prior, pending, PoolMap(pending, synthesizes)) <==>
              x in prior || (0 <= x < |parts| && x !in prior && synthesizes(Chunk(parts[x], bookDir, x)))
  {
    var results := PoolMap(pending, synthesizes);
    var extended := ExtendCompleted(prior, pending, results);
    forall x
      ensures x in extended <==> x in prior || (0 <= x < |parts| && x !in prior && synthesizes(Chunk(parts[x], bookDir, x)))
    {
      assert extended == extended[..|prior|] + extended[|prior|..];
      if x in extended[|prior|..] {
        var j :| 0 <= j < |pending| && results[j] && pending[j].index == x;
      }
      if 0 <= x < |parts| && x !in prior && synthesizes(Chunk(parts[x], bookDir, x)) {
        var j :| 0 <= j < |pending| && pending[j] == Chunk(parts[x], bookDir, x);
        assert results[j];
      }
    }
  }

  /** Lines 127-147 with both corrections: outcomes paired with their own
      chunks and the progress merged into the document on disk. The job
      never raises after the pool has run, records the union of the prior
      progress and this run's successes, and keeps every other book's
      progress. */
  method ConvertBookCorrected(
    bookId: string, bookDir: string, batchSize: int, resume: bool, chapters: seq<string>,
    progressFile: Option<ProgressStore>, split: string -> seq<string>, synthesizes: Chunk -> bool)
    returns (pending: seq<Chunk>, saved: Result<ProgressStore, ConvertError>)
    ensures PendingOf(pending, ChapterParts(chapters, split), bookDir, LoadCompleted(resume, progressFile, bookId))
    ensures batchSize < 1 ==> saved == Failure(InvalidBatchSize(batchSize))
    ensures batchSize >= 1 ==> saved.Success? && bookId in saved.value
    ensures saved.Success? ==>
              forall x :: x in saved.value[bookId] <==>
                || x in LoadCompleted(resume, progressFile, bookId)
                || (&& 0 <= x < |ChapterParts(chapters, split)|
                    && x !in LoadCompleted(resume, progressFile, bookId)
                    && synthesizes(Chunk(ChapterParts(chapters, split)[x], bookDir, x)))
    ensures saved.Success? ==>
              forall other :: other != bookId ==>
                LoadCompleted(true, Some(saved.value), other) == LoadCompleted(true, progressFile, other)
  {
    var allParts := AllParts(chapters, split, bookDir);
    var completed := LoadCompleted(resume, progressFile, bookId);
    pending := PendingChunks(allParts, completed);
    PendingOfBook(allParts, ChapterParts(chapters, split), bookDir, completed);
    if batchSize < 1 {
      saved := Failure(InvalidBatchSize(batchSize));
      return;
    }
    var results := PoolMap(pending, synthesizes);
    var extended := ExtendCompleted(completed, pending, results);
    CorrectedRecord(completed, pending, ChapterParts(chapters, split), bookDir, synthesizes);
    saved := Success(SaveProgressMerged(progressFile, bookId, extended));
    forall other | other != bookId
      ensures LoadCompleted(true, Some(saved.value), other) == LoadCompleted(true, progressFile, other)
    {
      MergedSaveKeepsOtherBooks(progressFile, bookId, extended, other);
    }
  }

  /** The whole job with both corrections, from the EPUB path on. */
  method ConvertEpubToAudiobookCorrected(
    epubPath: string, outputDir: string, batchSize: int, resume: bool,
    chapters: seq<string>, progressFile: Option<ProgressStore>, synthesizes: Chunk -> bool)
    returns (pending: seq<Chunk>, saved: Result<ProgressStore, ConvertError>)
    ensures PendingOf(pending, ChapterParts(chapters, PartsOf), BookOutputDir(outputDir, epubPath),
                      LoadCompleted(resume, progressFile, GetBookId(epubPath)))
    ensures batchSize < 1 ==> saved == Failure(InvalidBatchSize(batchSize))
    ensures batchSize >= 1 ==> saved.Success? && GetBookId(epubPath) in saved.value
    ensures saved.Success? ==>
              forall x :: x in saved.value[GetBookId(epubPath)] <==>
                || x in LoadCompleted(resume, progressFile, GetBookId(epubPath))
                || (&& 0 <= x < |ChapterParts(chapters, PartsOf)|
                    && x !in LoadCompleted(resume, progressFile, GetBookId(epubPath))
                    && synthesizes(Chunk(ChapterParts(chapters, PartsOf)[x], BookOutputDir(outputDir, epubPath), x)))
    ensures saved.Success? ==>
              forall other :: other != GetBookId(epubPath) ==>
                LoadCompleted(true, Some(saved.value), other) == LoadCompleted(true, progressFile, other)
  {
    var bookId := GetBookId(epubPath);
    var bookDir := PathJoin(outputDir, bookId);
    pending, saved := ConvertBookCorrected(bookId, bookDir, batchSize, resume, chapters, progressFile, PartsOf, synthesizes);
  }
}

=== FILE: outcomes.dfy ===
/** Optional values and results with an error, used where the program either
    finds nothing (a missing progress file) or raises an exception. */
module Outcomes {

  datatype Option<+T> = None | Some(value: T)

  datatype Result<+T, +E> = Success(value: T) | Failure(error: E)
}

=== FILE: paths.dfy ===
/** POSIX path handling behind `get_book_id` (main.py:152-153) and the
    output paths of main.py:118 and main.py:101: `str.rfind`,
    `os.path.basename`, `os.path.splitext` and `os.path.join` as the
    `posixpath` module defines them. */
module Paths {

  /** `s.rfind(c)`: the last index of `c` in `s`, or -1 when there is none. */
  function RFind(s: string, c: char): (r: int)
    ensures -1 <= r < |s|
    ensures r >= 0 ==> s[r] == c
    ensures forall k :: r < k < |s| ==> s[k] != c
    decreases |s|
  {
    if s == [] then -1
    else if s[|s| - 1] == c then |s| - 1
    else RFind(s[..|s| - 1], c)
  }

  /** `os.path.basename(p)`: everything after the last '/'. */
  function Basename(p: string): (r: string)
    ensures '/' !in r
    ensures |r| <= |p| && r == p[|p| - |r|..]
  {
    var i := RFind(p, '/') + 1;
    assert forall k :: 0 <= k < |p| - i ==> p[i..][k] == p[i + k];
    p[i..]
  }

  /** The base name is the longest suffix without '/': whatever of the path
      comes before it ends in '/'. */
  lemma BasenameAfterSlash(p: string)
    ensures |Basename(p)| < |p| ==> p[|p| - |Basename(p)| - 1] == '/'
  {
  }

  /** `os.path.join(a, b)`: `b` alone when it is absolute, otherwise `b`
      after `a`, with a '/' between unless `a` is empty or already ends
      in one. */
  function PathJoin(a: string, b: string): string
  {
    if |b| > 0 && b[0] == '/' then b
    else if a == [] || a[|a| - 1] == '/' then a + b
    else a + "/" + b
  }

  /** A joined path ends with the name joined, and starts with the
      directory when the name is relative. */
  lemma PathJoinEnds(a: string, b: string)
    ensures var r := PathJoin(a, b); |b| <= |r| && r[|r| - |b|..] == b
    ensures var r := PathJoin(a, b); (b == [] || b[0] != '/') ==> |a| <= |r| && r[..|a|] == a
  {
  }

  /** The base name of a joined path is the last component joined. */
  lemma BasenameOfJoin(a: string, b: string)
    requires '/' !in b
    ensures Basename(PathJoin(a, b)) == b
  {
    var p := PathJoin(a, b);
    assert p[|p| - |b|..] == b;
    assert forall k :: |p| - |b| <= k < |p| ==> p[k] == b[k - (|p| - |b|)];
    if |p| == |b| {
      assert p == b;
      RFindNone(p, '/');
    } else {
      assert p[|p| - |b| - 1] == '/';
      RFindAt(p, '/', |p| - |b| - 1);
    }
  }

  /** The leading-dot loop of `genericpath._splitext`: walking from `i`
      towards `dotIndex`, does it meet a character other than '.'? */
  function NonDotBefore(p: string, i: nat, dotIndex: nat): (found: bool)
    requires i <= dotIndex <= |p|
    ensures found <==> exists k :: i <= k < dotIndex && p[k] != '.'
    decreases dotIndex - i
  {
    if i < dotIndex then
      if p[i] != '.' then true else NonDotBefore(p, i + 1, dotIndex)
    else false
  }

  /** The last component of `p` has an extension: a final '.' in it, with
      some character other than '.' before that dot. */
  predicate HasExtension(p: string) {
    exists i, d :: 0 <= i < d < |p| && p[d] == '.' && p[i] != '.' && '/' !in p[i..] && '.' !in p[d + 1..]
  }

  /** `os.path.splitext(p)`: the root and the extension, which starts at the
      last '.' of the last component unless only dots come before it. */
  function SplitExt(p: string): (r: (string, string))
    ensures r.0 + r.1 == p
    ensures r.1 == [] || (r.1[0] == '.' && '.' !in r.1[1..] && '/' !in r.1)
    ensures r.1 != [] <==> HasExtension(p)
  {
    var sepIndex := RFind(p, '/');
    var dotIndex := RFind(p, '.');
    if dotIndex > sepIndex && NonDotBefore(p, sepIndex + 1, dotIndex) then
      SplitExtFacts(p, sepIndex, dotIndex);
      (p[..dotIndex], p[dotIndex..])
    else
      SplitExtNone(p, sepIndex, dotIndex);
      (p, [])
  }

  lemma SplitExtFacts(p: string, sepIndex: int, dotIndex: int)
    requires sepIndex == RFind(p, '/') && dotIndex == RFind(p, '.')
    requires dotIndex > sepIndex && NonDotBefore(p, sepIndex + 1, dotIndex)
    ensures p[..dotIndex] + p[dotIndex..] == p
    ensures p[dotIndex..] != [] && p[dotIndex..][0] == '.'
    ensures '.' !in p[dotIndex..][1..] && '/' !in p[dotIndex..]
    ensures HasExtension(p)
  {
    var i :| sepIndex + 1 <= i < dotIndex && p[i] != '.';
    assert forall k :: 0 <= k < |p| - dotIndex - 1 ==> p[dotIndex..][1..][k] == p[dotIndex + 1 + k];
    assert forall k :: 0 <= k < |p| - i ==> p[i..][k] == p[i + k];
    assert '/' !in p[i..];
    assert '.' !in p[dotIndex + 1..];
  }

  lemma SplitExtNone(p: string, sepIndex: int, dotIndex: int)
    requires sepIndex == RFind(p, '/') && dotIndex == RFind(p, '.')
    requires !(dotIndex > sepIndex && NonDotBefore(p, sepIndex + 1, dotIndex))
    ensures !HasExtension(p)
  {
  }

  /** `get_book_id(epub_path)`: the base name without its extension. */
  function GetBookId(epubPath: string): (id: string)
    ensures '/' !in id
    ensures |id| <= |Basename(epubPath)| && id == Basename(epubPath)[..|id|]
    ensures id != Basename(epubPath) <==> HasExtension(Basename(epubPath))
    ensures id != Basename(epubPath) ==>
              Basename(epubPath)[|id|] == '.' && '.' !in Basename(epubPath)[|id| + 1..]
  {
    var b := Basename(epubPath);
    var (root, ext) := SplitExt(b);
    PrefixHasNoSlash(b, root, ext);
    ExtensionAfterRoot(b, root, ext);
    root
  }

  lemma PrefixHasNoSlash(b: string, root: string, ext: string)
    requires '/' !in b && root + ext == b
    ensures '/' !in root && |root| <= |b| && root == b[..|root|]
  {
    assert forall k :: 0 <= k < |root| ==> root[k] == b[k];
  }

  /** Where the root ends, the extension's '.' stands, and no '.' after it. */
  lemma ExtensionAfterRoot(b: string, root: string, ext: string)
    requires root + ext == b
    requires ext == [] || (ext[0] == '.' && '.' !in ext[1..])
    ensures ext != [] ==> b[|root|] == '.' && '.' !in b[|root| + 1..]
  {
    if ext != [] {
      assert b[|root|] == ext[0];
      assert b[|root| + 1..] == ext[1..];
    }
  }

  /** `rfind` finds `c` at `i` when nothing after `i` is `c`. */
  lemma RFindAt(s: string, c: char, i: int)
    requires 0 <= i < |s| && s[i] == c
    requires forall k :: i < k < |s| ==> s[k] != c
    ensures RFind(s, c) == i
  {
  }

  lemma RFindNone(s: string, c: char)
    requires c !in s
    ensures RFind(s, c) == -1
  {
  }

  lemma BookIdOfEpub()
    ensures GetBookId("dir/name.epub") == "name"
  {
    RFindAt("dir/name.epub", '/', 3);
    assert Basename("dir/name.epub") == "name.epub";
    RFindNone("name.epub", '/');
    RFindAt("name.epub", '.', 4);
    assert NonDotBefore("name.epub", 0, 4);
    assert "name.epub"[..4] == "name";
  }

  /** A base name whose only '.' leads it has no extension and is kept whole. */
  lemma BookIdOfHidden()
    ensures GetBookId(".hidden") == ".hidden"
  {
    RFindNone(".hidden", '/');
    RFindAt(".hidden", '.', 0);
    assert Basename(".hidden") == ".hidden";
  }

  /** Only the last extension goes. */
  lemma BookIdOfDoubleExtension()
    ensures GetBookId("/books/tale.tar.gz") == "tale.tar"
  {
    RFindAt("/books/tale.tar.gz", '/', 6);
    assert Basename("/books/tale.tar.gz") == "tale.tar.gz";
    RFindNone("tale.tar.gz", '/');
    RFindAt("tale.tar.gz", '.', 8);
    assert NonDotBefore("tale.tar.gz", 0, 8);
    assert "tale.tar.gz"[..8] == "tale.tar";
  }
}

=== FILE: pystr.dfy ===
/** The Python `str` operations that `main.py` relies on, over `seq<char>`:
    `isspace`, `strip`, `split(sep)`, `sep.join(...)` and `''.join(...)`.
    `len` is `|s|`: a Dafny `char` is a Unicode scalar value, which is a
    Python code point other than a lone surrogate (Python strings can hold
    those; the model's strings cannot). */
module PyStr {

  /** The characters Python's `str.isspace()` accepts, which is the set
      `str.strip()` with no argument removes. */
  predicate IsSpace(c: char) {
    || c == ' '
    || ('\t' <= c <= '\r')
    || ('\U{1C}' <= c <= '\U{1F}')
    || c == '\U{85}'
    || c == '\U{A0}'
    || c == '\U{1680}'
    || ('\U{2000}' <= c <= '\U{200A}')
    || c == '\U{2028}'
    || c == '\U{2029}'
    || c == '\U{202F}'
    || c == '\U{205F}'
    || c == '\U{3000}'
  }

  predicate AllSpace(s: string) {
    forall k :: 0 <= k < |s| ==> IsSpace(s[k])
  }

  /** Neither end of `s` is white space (vacuously true of the empty string). */
  predicate Trimmed(s: string) {
    s == [] || (!IsSpace(s[0]) && !IsSpace(s[|s| - 1]))
  }

  /** The first index at or after `i` that is not white space (or `|s|`). */
  function SpanStart(s: string, i: nat): (n: nat)
    requires i <= |s|
    ensures i <= n <= |s|
    ensures forall k :: i <= k < n ==> IsSpace(s[k])
    ensures n < |s| ==> !IsSpace(s[n])
    decreases |s| - i
  {
    if i < |s| && IsSpace(s[i]) then SpanStart(s, i + 1) else i
  }

  /** Scanning back from `j` but never below `lo`, the end of the last
      character that is not white space (or `lo`). */
  function SpanEnd(s: string, lo: nat, j: nat): (m: nat)
    requires lo <= j <= |s|
    ensures lo <= m <= j
    ensures forall k :: m <= k < j ==> IsSpace(s[k])
    ensures m > lo ==> !IsSpace(s[m - 1])
    decreases j
  {
    if j > lo && IsSpace(s[j - 1]) then SpanEnd(s, lo, j - 1) else j
  }

  /** Python `s.strip()`: scan forward past the leading white space, then
      back over the trailing white space, and keep what lies between. The
      result never has white space at either end. */
  function Strip(s: string): (r: string)
    ensures |r| <= |s| && Trimmed(r)
  {
    var i := SpanStart(s, 0);
    s[i..SpanEnd(s, i, |s|)]
  }

  /** What `strip` returns is a piece of `s` with no white space at either
      end; only white space is cut away before and after that piece; it is
      empty exactly when `s` is all white space, and it keeps a last
      character of `s` that is not white space. */
  lemma StripSpec(s: string)
    ensures |Strip(s)| <= |s|
    ensures Trimmed(Strip(s))
    ensures exists i, j :: 0 <= i <= j <= |s| && Strip(s) == s[i..j] && AllSpace(s[..i]) && AllSpace(s[j..])
    ensures Strip(s) == [] <==> AllSpace(s)
    ensures forall k :: 0 <= k < |Strip(s)| ==> Strip(s)[k] in s
    ensures s != [] && !IsSpace(s[|s| - 1]) ==> Strip(s) != [] && Strip(s)[|Strip(s)| - 1] == s[|s| - 1]
  {
    StripEnds(s);
    StripEmpty(s);
    StripSlice(s);
    var i := SpanStart(s, 0);
    var j := SpanEnd(s, i, |s|);
    assert AllSpace(s[..i]) by {
      assert forall k :: 0 <= k < i ==> s[..i][k] == s[k];
    }
    assert AllSpace(s[j..]) by {
      assert forall k :: 0 <= k < |s| - j ==> s[j..][k] == s[j + k];
    }
    forall k | 0 <= k < |Strip(s)|
      ensures Strip(s)[k] in s
    {
      assert Strip(s)[k] == s[SpanStart(s, 0) + k];
    }
  }

  /** `strip` keeps the characters from the first to the last one that is
      not white space. */
  lemma StripSlice(s: string)
    ensures |Strip(s)| == SpanEnd(s, SpanStart(s, 0), |s|) - SpanStart(s, 0)
    ensures forall k :: 0 <= k < |Strip(s)| ==> Strip(s)[k] == s[SpanStart(s, 0) + k]
  {
  }

  lemma StripEnds(s: string)
    ensures Trimmed(Strip(s))
    ensures s != [] && !IsSpace(s[|s| - 1]) ==> Strip(s) != [] && Strip(s)[|Strip(s)| - 1] == s[|s| - 1]
  {
    StripSlice(s);
    var i := SpanStart(s, 0);
    var j := SpanEnd(s, i, |s|);
    if i < j {
      assert Strip(s)[0] == s[i];
      assert Strip(s)[|Strip(s)| - 1] == s[j - 1];
    }
    if s != [] && !IsSpace(s[|s| - 1]) {
      assert i < |s|;
      assert j == |s|;
    }
  }

  lemma StripEmpty(s: string)
    ensures Strip(s) == [] <==> AllSpace(s)
  {
    StripSlice(s);
    var i := SpanStart(s, 0);
    var j := SpanEnd(s, i, |s|);
    if AllSpace(s) {
      assert i == |s|;
    }
  }

  /** `strip` leaves a string without white space at either end unchanged. */
  lemma StripTrimmed(s: string)
    requires Trimmed(s)
    ensures Strip(s) == s
  {
  }

  lemma StripIdempotent(s: string)
    ensures Strip(Strip(s)) == Strip(s)
  {
    StripTrimmed(Strip(s));
  }

  /** Python `s.split(sep)` for a one-character separator: the pieces between
      the occurrences of `sep`, always at least one, none containing `sep`. */
  function Split(s: string, sep: char): (r: seq<string>)
    ensures |r| >= 1
    decreases |s|
  {
    if s == [] then [[]]
    else
      var rest := Split(s[1..], sep);
      if s[0] == sep then [[]] + rest
      else [[s[0]] + rest[0]] + rest[1..]
  }

  /** No piece of a split holds the separator. */
  lemma {:induction false} SplitPiecesNoSep(s: string, sep: char)
    ensures forall k :: 0 <= k < |Split(s, sep)| ==> sep !in Split(s, sep)[k]
    decreases |s|
  {
    if s != [] {
      SplitPiecesNoSep(s[1..], sep);
      var rest := Split(s[1..], sep);
      if s[0] != sep {
        assert sep !in [s[0]] + rest[0];
        assert forall k :: 1 <= k < |Split(s, sep)| ==> Split(s, sep)[k] == rest[k];
      } else {
        assert forall k :: 1 <= k < |Split(s, sep)| ==> Split(s, sep)[k] == rest[k - 1];
      }
    }
  }

  /** Python `sep.join(parts)`. */
  function Join(parts: seq<string>, sep: char): string
    decreases |parts|
  {
    if parts == [] then []
    else if |parts| == 1 then parts[0]
    else parts[0] + [sep] + Join(parts[1..], sep)
  }

  /** Python `''.join(parts)`. */
  function Concat(parts: seq<string>): string
    decreases |parts|
  {
    if parts == [] then [] else parts[0] + Concat(parts[1..])
  }

  /** `sep.join` adds exactly one separator between each two pieces: the
      result is as long as the pieces together, plus one less than there
      are pieces. */
  lemma {:induction false} JoinLength(parts: seq<string>, sep: char)
    requires parts != []
    ensures |Join(parts, sep)| == |Concat(parts)| + |parts| - 1
    decreases |parts|
  {
    if |parts| > 1 {
      JoinLength(parts[1..], sep);
    }
  }

  lemma JoinCons(head: string, tail: seq<string>, sep: char)
    requires tail != []
    ensures Join([head] + tail, sep) == head + [sep] + Join(tail, sep)
  {
    assert ([head] + tail)[1..] == tail;
  }

  /** Joining the pieces of a split gives back the original string. */
  lemma {:induction false} JoinSplit(s: string, sep: char)
    ensures Join(Split(s, sep), sep) == s
    decreases |s|
  {
    if s != [] {
      var rest := Split(s[1..], sep);
      JoinSplit(s[1..], sep);
      if s[0] == sep {
        JoinCons([], rest, sep);
      } else if |rest| == 1 {
        assert Split(s, sep) == [[s[0]] + rest[0]];
        assert [s[0]] + s[1..] == s;
      } else {
        assert rest == [rest[0]] + rest[1..];
        JoinCons(rest[0], rest[1..], sep);
        JoinCons([s[0]] + rest[0], rest[1..], sep);
        assert [s[0]] + s[1..] == s;
      }
    }
  }

  /** Splitting a string without the separator gives the string itself. */
  lemma {:induction false} SplitNoSep(s: string, sep: char)
    requires sep !in s
    ensures Split(s, sep) == [s]
    decreases |s|
  {
    if s != [] {
      SplitNoSep(s[1..], sep);
      assert [s[0]] + s[1..] == s;
    }
  }

  /** Splitting a string with one more character in front. */
  lemma SplitCons(c: char, t: string, sep: char)
    ensures Split([c] + t, sep)
         == if c == sep then [[]] + Split(t, sep) else [[c] + Split(t, sep)[0]] + Split(t, sep)[1..]
  {
    assert ([c] + t)[1..] == t;
  }

  /** A separator between two strings separates their pieces. */
  lemma {:induction false} SplitAround(a: string, b: string, sep: char)
    ensures Split(a + [sep] + b, sep) == Split(a, sep) + Split(b, sep)
    decreases |a|
  {
    if a == [] {
      assert a + [sep] + b == [sep] + b;
      SplitCons(sep, b, sep);
    } else {
      SplitAround(a[1..], b, sep);
      SplitAroundCons(a[0], a[1..], b, sep);
      assert [a[0]] + a[1..] == a;
    }
  }

  /** The step of `SplitAround`: one more character in front of `a`. */
  lemma SplitAroundCons(c: char, a: string, b: string, sep: char)
    requires Split(a + [sep] + b, sep) == Split(a, sep) + Split(b, sep)
    ensures Split(([c] + a) + [sep] + b, sep) == Split([c] + a, sep) + Split(b, sep)
  {
    var t := a + [sep] + b;
    assert ([c] + a) + [sep] + b == [c] + t;
    SplitCons(c, t, sep);
    SplitCons(c, a, sep);
    PrependPiece(c, sep, Split(a, sep), Split(b, sep));
  }

  /** How a leading character enters the first of the pieces `ra + rb`. */
  lemma PrependPiece(c: char, sep: char, ra: seq<string>, rb: seq<string>)
    requires ra != []
    ensures (if c == sep then [[]] + (ra + rb) else [[c] + (ra + rb)[0]] + (ra + rb)[1..])
         == (if c == sep then [[]] + ra else [[c] + ra[0]] + ra[1..]) + rb
  {
    if c != sep {
      assert (ra + rb)[1..] == ra[1..] + rb;
    }
  }

  /** Splitting the join of separator-free pieces gives back the pieces. */
  lemma {:induction false} SplitJoin(parts: seq<string>, sep: char)
    requires parts != []
    requires forall k :: 0 <= k < |parts| ==> sep !in parts[k]
    ensures Split(Join(parts, sep), sep) == parts
    decreases |parts|
  {
    if |parts| == 1 {
      SplitNoSep(parts[0], sep);
    } else {
      SplitJoin(parts[1..], sep);
      SplitNoSep(parts[0], sep);
      SplitAround(parts[0], Join(parts[1..], sep), sep);
      assert [parts[0]] + parts[1..] == parts;
    }
  }

  lemma {:induction false} ConcatAppend(a: seq<string>, b: seq<string>)
    ensures Concat(a + b) == Concat(a) + Concat(b)
    decreases |a|
  {
    if a == [] {
      assert a + b == b;
    } else {
      assert (a + b)[1..] == a[1..] + b;
      ConcatAppend(a[1..], b);
    }
  }
}

=== FILE: splitter.dfy ===
/** The sentence splitter `split_text_into_parts` (main.py:79-91).

    The text is split on '.', and every fragment, the empty one after a
    final '.' included, gets its '.' back. Fragments are packed into a buffer
    while `len(buffer) + len(fragment) + 1 <= max_length`; otherwise the
    buffer is flushed stripped of white space and a new buffer starts with
    the fragment. The cap is soft: a fragment that alone exceeds it becomes a
    part of its own, never cut. */
module Splitter {
  import opened PyStr

  /** Each fragment followed by the '.' that `split` removed, concatenated. */
  function Dotted(fragments: seq<string>): string
    decreases |fragments|
  {
    if fragments == [] then [] else fragments[0] + "." + Dotted(fragments[1..])
  }

  predicate EndsWithDot(s: string) {
    |s| > 0 && s[|s| - 1] == '.'
  }

  /** `b` is one fragment with its '.', and that alone exceeds the cap. */
  predicate OversizedFragment(b: string, fragments: seq<string>, maxLength: int) {
    exists j :: 0 <= j < |fragments| && b == fragments[j] + "." && |fragments[j]| + 1 > maxLength
  }

  /** The buffers the loop at lines 83-90 flushes, unstripped, when it starts
      on `fragments` with `current` in the buffer; the final flush at line 90
      is included. */
  function Pack(fragments: seq<string>, maxLength: int, current: string): seq<string>
    decreases |fragments|
  {
    if fragments == [] then
      if current != [] then [current] else []
    else
      var f := fragments[0];
      if |current| + |f| + 1 > maxLength then
        [current] + Pack(fragments[1..], maxLength, f + ".")
      else
        Pack(fragments[1..], maxLength, current + f + ".")
  }

  /** Every flushed buffer but the first ends in '.'; so does the last one,
      and the first one unless it is the starting buffer flushed at once
      because the first fragment does not fit beside it. */
  lemma {:induction false} PackShape(fragments: seq<string>, maxLength: int, current: string)
    ensures var flushed := Pack(fragments, maxLength, current);
      && (fragments != [] ==> flushed != [] && EndsWithDot(flushed[|flushed| - 1]))
      && (forall k :: 0 < k < |flushed| ==> EndsWithDot(flushed[k]))
      && (EndsWithDot(current) ==> flushed != [] && EndsWithDot(flushed[0]))
      && (fragments != [] && |current| + |fragments[0]| + 1 > maxLength ==> flushed[0] == current)
      && (fragments != [] && |current| + |fragments[0]| + 1 <= maxLength ==> EndsWithDot(flushed[0]))
    decreases |fragments|
  {
    if fragments != [] {
      var f := fragments[0];
      if |current| + |f| + 1 > maxLength {
        PackShape(fragments[1..], maxLength, f + ".");
        var rest := Pack(fragments[1..], maxLength, f + ".");
        assert forall k :: 0 < k < |rest| + 1 ==> ([current] + rest)[k] == rest[k - 1];
      } else {
        PackShape(fragments[1..], maxLength, current + f + ".");
      }
    }
  }

  /** A flushed buffer is within the cap, or is a single fragment that alone
      exceeds it, or is the starting buffer. */
  lemma {:induction false} PackBound(fragments: seq<string>, maxLength: int, current: string)
    ensures forall k :: 0 <= k < |Pack(fragments, maxLength, current)| ==>
      || |Pack(fragments, maxLength, current)[k]| <= maxLength
      || OversizedFragment(Pack(fragments, maxLength, current)[k], fragments, maxLength)
      || (k == 0 && Pack(fragments, maxLength, current)[k] == current)
    decreases |fragments|
  {
    if fragments != [] {
      var f := fragments[0];
      var flushed := Pack(fragments, maxLength, current);
      var next := if |current| + |f| + 1 > maxLength then f + "." else current + f + ".";
      var rest := Pack(fragments[1..], maxLength, next);
      PackBound(fragments[1..], maxLength, next);
      var shift := if |current| + |f| + 1 > maxLength then 1 else 0;
      assert flushed == if shift == 1 then [current] + rest else rest;
      forall k | 0 <= k < |flushed|
        ensures
          || |flushed[k]| <= maxLength
          || OversizedFragment(flushed[k], fragments, maxLength)
          || (k == 0 && flushed[k] == current)
      {
        if k >= shift {
          var b := rest[k - shift];
          assert flushed[k] == b;
          assert || |b| <= maxLength
                 || OversizedFragment(b, fragments[1..], maxLength)
                 || (k - shift == 0 && b == next);
          if OversizedFragment(b, fragments[1..], maxLength) {
            OversizedShift(fragments, maxLength, b);
          } else if |b| > maxLength {
            assert k - shift == 0 && b == next;
            if shift == 1 {
              assert b == fragments[0] + "." && |fragments[0]| + 1 > maxLength;
            }
          }
        }
      }
    }
  }

  /** A non-empty starting buffer opens the first flushed buffer. */
  lemma {:induction false} PackFirst(fragments: seq<string>, maxLength: int, current: string)
    requires current != []
    ensures Pack(fragments, maxLength, current) != []
    ensures current <= Pack(fragments, maxLength, current)[0]
    decreases |fragments|
  {
    if fragments != [] {
      var f := fragments[0];
      if |current| + |f| + 1 <= maxLength {
        PackFirst(fragments[1..], maxLength, current + f + ".");
      }
    }
  }

  /** Every buffer in `flushed` but the last is followed by one that opens
      with a fragment and its '.', and that fragment would have taken the
      earlier buffer over the cap. */
  predicate FlushedForLackOfRoom(fragments: seq<string>, maxLength: int, flushed: seq<string>) {
    forall k :: 0 <= k < |flushed| - 1 ==> OpensWithOverflow(fragments, maxLength, flushed[k], flushed[k + 1])
  }

  /** `next` opens with a fragment and its '.', and that fragment does not
      fit beside `prev` under the cap. */
  predicate OpensWithOverflow(fragments: seq<string>, maxLength: int, prev: string, next: string) {
    exists j :: 0 <= j < |fragments| && fragments[j] + "." <= next && |prev| + |fragments[j]| + 1 > maxLength
  }

  /** A buffer is flushed only because the next fragment does not fit
      beside it (line 84). */
  lemma {:induction false} PackFlushRule(fragments: seq<string>, maxLength: int, current: string)
    ensures FlushedForLackOfRoom(fragments, maxLength, Pack(fragments, maxLength, current))
    decreases |fragments|
  {
    if fragments != [] {
      var f := fragments[0];
      if |current| + |f| + 1 > maxLength {
        var rest := Pack(fragments[1..], maxLength, f + ".");
        PackFlushRule(fragments[1..], maxLength, f + ".");
        FlushRuleShift(fragments, maxLength, rest);
        PackFirst(fragments[1..], maxLength, f + ".");
        FlushRulePrepend(fragments, maxLength, current, rest, 0);
      } else {
        var rest := Pack(fragments[1..], maxLength, current + f + ".");
        PackFlushRule(fragments[1..], maxLength, current + f + ".");
        FlushRuleShift(fragments, maxLength, rest);
      }
    }
  }

  /** The flush rule over the later fragments holds over all of them. */
  lemma FlushRuleShift(fragments: seq<string>, maxLength: int, flushed: seq<string>)
    requires fragments != []
    requires FlushedForLackOfRoom(fragments[1..], maxLength, flushed)
    ensures FlushedForLackOfRoom(fragments, maxLength, flushed)
  {
    forall k | 0 <= k < |flushed| - 1
      ensures OpensWithOverflow(fragments, maxLength, flushed[k], flushed[k + 1])
    {
      assert OpensWithOverflow(fragments[1..], maxLength, flushed[k], flushed[k + 1]);
      var j :| 0 <= j < |fragments[1..]| && fragments[1..][j] + "." <= flushed[k + 1]
                                         && |flushed[k]| + |fragments[1..][j]| + 1 > maxLength;
      assert fragments[j + 1] == fragments[1..][j];
    }
  }

  /** A buffer flushed in front of others keeps the flush rule when the
      fragment opening the next one did not fit beside it. */
  lemma FlushRulePrepend(fragments: seq<string>, maxLength: int, current: string, rest: seq<string>, j: int)
    requires FlushedForLackOfRoom(fragments, maxLength, rest)
    requires 0 <= j < |fragments| && rest != [] && fragments[j] + "." <= rest[0]
    requires |current| + |fragments[j]| + 1 > maxLength
    ensures FlushedForLackOfRoom(fragments, maxLength, [current] + rest)
  {
    var flushed := [current] + rest;
    forall k | 0 <= k < |flushed| - 1
      ensures OpensWithOverflow(fragments, maxLength, flushed[k], flushed[k + 1])
    {
      if k == 0 {
        assert flushed[1] == rest[0];
      } else {
        assert flushed[k] == rest[k - 1] && flushed[k + 1] == rest[k];
      }
    }
  }

  lemma OversizedShift(fragments: seq<string>, maxLength: int, b: string)
    requires fragments != []
    requires OversizedFragment(b, fragments[1..], maxLength)
    ensures OversizedFragment(b, fragments, maxLength)
  {
    var j :| 0 <= j < |fragments[1..]| && b == fragments[1..][j] + "." && |fragments[1..][j]| + 1 > maxLength;
    assert fragments[1..][j] == fragments[j + 1];
  }

  /** The flushed buffers, concatenated, are the starting buffer followed by
      every fragment with its '.', in order: nothing is dropped or moved. */
  lemma {:induction false} PackConcat(fragments: seq<string>, maxLength: int, current: string)
    ensures Concat(Pack(fragments, maxLength, current)) == current + Dotted(fragments)
    decreases |fragments|
  {
    if fragments == [] {
    } else {
      var f := fragments[0];
      if |current| + |f| + 1 > maxLength {
        var rest := Pack(fragments[1..], maxLength, f + ".");
        PackConcat(fragments[1..], maxLength, f + ".");
        assert ([current] + rest)[1..] == rest;
      } else {
        PackConcat(fragments[1..], maxLength, current + f + ".");
      }
    }
  }

  /** When everything left fits under the cap, it all ends in one buffer. */
  lemma {:induction false} PackFits(fragments: seq<string>, maxLength: int, current: string)
    requires |current| + |Dotted(fragments)| <= maxLength
    requires current != [] || fragments != []
    ensures Pack(fragments, maxLength, current) == [current + Dotted(fragments)]
    decreases |fragments|
  {
    if fragments != [] {
      var f := fragments[0];
      assert Dotted(fragments) == f + "." + Dotted(fragments[1..]);
      assert |current| + |f| + 1 <= maxLength;
      assert Pack(fragments, maxLength, current) == Pack(fragments[1..], maxLength, current + f + ".");
      PackFits(fragments[1..], maxLength, current + f + ".");
      assert current + f + "." + Dotted(fragments[1..]) == current + Dotted(fragments);
    } else {
      assert current + Dotted(fragments) == current;
    }
  }

  /** Joining the pieces with '.' and adding one '.' is the same as giving
      every piece its '.' back. */
  lemma {:induction false} DottedJoin(fragments: seq<string>)
    requires fragments != []
    ensures Dotted(fragments) == Join(fragments, '.') + "."
    decreases |fragments|
  {
    if |fragments| > 1 {
      DottedJoin(fragments[1..]);
    }
  }

  /** Every unstripped buffer of `split_text_into_parts`, in order. */
  function RawParts(text: string, maxLength: int): (raw: seq<string>)
    ensures Concat(raw) == text + "."
    ensures raw != []
  {
    var fragments := Split(text, '.');
    PackConcat(fragments, maxLength, "");
    DottedJoin(fragments);
    JoinSplit(text, '.');
    Pack(fragments, maxLength, "")
  }

  /** `split_text_into_parts(text, max_length)`: the flushed buffers, each
      stripped; there is always a part, and none has white space at either
      end. */
  function SplitTextIntoParts(text: string, maxLength: int): (parts: seq<string>)
    ensures parts != []
    ensures forall k :: 0 <= k < |parts| ==> Trimmed(parts[k])
  {
    var raw := RawParts(text, maxLength);
    seq(|raw|, k requires 0 <= k < |raw| => Strip(raw[k]))
  }

  /** The flush rule for the buffers of `split_text_into_parts`: a buffer is
      cut off only where the next sentence would not fit beside it. */
  lemma RawPartsFlushRule(text: string, maxLength: int)
    ensures FlushedForLackOfRoom(Split(text, '.'), maxLength, RawParts(text, maxLength))
  {
    PackFlushRule(Split(text, '.'), maxLength, "");
    assert RawParts(text, maxLength) == Pack(Split(text, '.'), maxLength, "");
  }

  /** There is always a part, and the last one ends in '.'; every part but
      the first ends in '.'; the first part is empty exactly when the first
      fragment does not fit beside the empty starting buffer; and a part is
      within the cap unless it is that empty first part or one fragment that
      alone exceeds the cap. */
  lemma SplitTextIntoPartsShape(text: string, maxLength: int)
    ensures SplitTextIntoParts(text, maxLength) != []
    ensures EndsWithDot(SplitTextIntoParts(text, maxLength)[|SplitTextIntoParts(text, maxLength)| - 1])
    ensures forall k :: 0 < k < |SplitTextIntoParts(text, maxLength)| ==> EndsWithDot(SplitTextIntoParts(text, maxLength)[k])
    ensures SplitTextIntoParts(text, maxLength)[0] == [] <==> |Split(text, '.')[0]| + 1 > maxLength
    ensures forall k :: 0 <= k < |SplitTextIntoParts(text, maxLength)| ==>
              || |SplitTextIntoParts(text, maxLength)[k]| <= maxLength
              || (k == 0 && SplitTextIntoParts(text, maxLength)[k] == [])
              || exists j :: 0 <= j < |Split(text, '.')| && SplitTextIntoParts(text, maxLength)[k] == Strip(Split(text, '.')[j] + ".")
                                                          && |Split(text, '.')[j]| + 1 > maxLength
  {
    StripBounds(Split(text, '.'), maxLength, RawParts(text, maxLength), SplitTextIntoParts(text, maxLength));
  }

  /** Stripping keeps a '.' at the end, never lengthens a buffer, and keeps
      each oversized buffer a whole fragment. */
  lemma StripBounds(fragments: seq<string>, maxLength: int, raw: seq<string>, parts: seq<string>)
    requires fragments != []
    requires raw == Pack(fragments, maxLength, "")
    requires |parts| == |raw| && forall k :: 0 <= k < |raw| ==> parts[k] == Strip(raw[k])
    ensures parts != [] && EndsWithDot(parts[|parts| - 1])
    ensures forall k :: 0 < k < |parts| ==> EndsWithDot(parts[k])
    ensures parts[0] == [] <==> |fragments[0]| + 1 > maxLength
    ensures forall k :: 0 <= k < |parts| ==>
              || |parts[k]| <= maxLength
              || (k == 0 && parts[k] == [])
              || exists j :: 0 <= j < |fragments| && parts[k] == Strip(fragments[j] + ".") && |fragments[j]| + 1 > maxLength
  {
    PackShape(fragments, maxLength, "");
    PackBound(fragments, maxLength, "");
    forall k | 0 <= k < |parts|
      ensures
        || |parts[k]| <= maxLength
        || (k == 0 && parts[k] == [])
        || exists j :: 0 <= j < |fragments| && parts[k] == Strip(fragments[j] + ".") && |fragments[j]| + 1 > maxLength
    {
      if OversizedFragment(raw[k], fragments, maxLength) {
        var j :| 0 <= j < |fragments| && raw[k] == fragments[j] + "." && |fragments[j]| + 1 > maxLength;
        assert parts[k] == Strip(fragments[j] + ".");
      }
    }
  }

  /** The parts are the flushed buffers stripped, one for one, and the
      buffers put back together are the text with one '.' added. */
  lemma SplitRoundTrip(text: string, maxLength: int)
    ensures var raw := RawParts(text, maxLength);
      && Concat(raw) == text + "."
      && |SplitTextIntoParts(text, maxLength)| == |raw|
      && forall k :: 0 <= k < |raw| ==> SplitTextIntoParts(text, maxLength)[k] == Strip(raw[k])
  {
  }

  /** A text that fits under the cap with its extra '.' is one part. */
  lemma FitsInOnePart(text: string, maxLength: int)
    requires |text| + 1 <= maxLength
    ensures SplitTextIntoParts(text, maxLength) == [Strip(text + ".")]
  {
    var fragments := Split(text, '.');
    DottedJoin(fragments);
    JoinSplit(text, '.');
    PackFits(fragments, maxLength, "");
    assert [] + Dotted(fragments) == text + ".";
  }

  /** The empty text is one part, "." (not zero parts), under any positive cap. */
  lemma EmptyTextGivesDot(maxLength: int)
    requires maxLength >= 1
    ensures SplitTextIntoParts("", maxLength) == ["."]
  {
    assert Split("", '.') == [""];
    assert "" + "" + "." == ".";
    assert Pack([""], maxLength, "") == Pack([], maxLength, ".");
    assert RawParts("", maxLength) == ["."];
    DotTrimmed();
  }

  lemma DotTrimmed()
    ensures Strip(".") == "."
  {
    assert !IsSpace('.');
    StripTrimmed(".");
  }

  /** A first fragment over the cap flushes the initial empty buffer first,
      so the first part is empty. */
  lemma OversizedFirstFragment()
    ensures SplitTextIntoParts("abc", 2) == ["", "abc."]
  {
    SplitNoSep("abc", '.');
    assert "abc" + "." == "abc.";
    assert ["abc"][1..] == [];
    assert Pack(["abc"], 2, "") == [""] + Pack([], 2, "abc.");
    assert RawParts("abc", 2) == ["", "abc."];
    StripTrimmed("abc.");
    assert AllSpace("");
  }

  /** A text ending in '.' whose last sentence fills the buffer to the cap:
      the empty fragment after the final '.' does not fit beside it, so it
      becomes a part of its own, a lone '.'. */
  lemma StrayDotPart()
    ensures SplitTextIntoParts("ab.", 3) == ["ab.", "."]
  {
    StrayDotFragments();
    StrayDotPack();
    assert RawParts("ab.", 3) == ["ab.", "."];
    PartsOfTwoBuffers("ab.", 3, "ab.", ".");
    StripTrimmed("ab.");
    DotTrimmed();
  }

  lemma StrayDotPack()
    ensures Pack(["ab", ""], 3, "") == ["ab.", "."]
  {
    assert "" + "ab" + "." == "ab.";
    assert "" + "." == ".";
    assert ["ab", ""][1..] == [""] && [""][1..] == [];
    assert Pack([""], 3, "ab.") == ["ab."] + Pack([], 3, ".");
  }

  lemma PartsOfTwoBuffers(text: string, maxLength: int, a: string, b: string)
    requires RawParts(text, maxLength) == [a, b]
    ensures SplitTextIntoParts(text, maxLength) == [Strip(a), Strip(b)]
  {
  }

  lemma StrayDotFragments()
    ensures Split("ab.", '.') == ["ab", ""]
  {
    JoinStep("ab", [""], "", "ab.");
    assert ["ab"] + [""] == ["ab", ""];
    SplitJoin(["ab", ""], '.');
  }

  /** The trace of lines 82-90 on a three-sentence text under a cap of 20:
      "Hello world." fits, " This is a test" does not fit after it, " Short"
      does not fit after that, and the empty last fragment is appended to
      " Short.", which gives the doubled '.'. */
  lemma ThreeSentencesUnderTwenty()
    ensures SplitTextIntoParts("Hello world. This is a test. Short.", 20)
         == ["Hello world.", "This is a test.", "Short.."]
  {
    ThreeSentencesRaw();
    PartsOfThreeBuffers("Hello world. This is a test. Short.", 20, "Hello world.", " This is a test.", " Short..");
    ThreeSentencesStrips();
  }

  lemma PartsOfThreeBuffers(text: string, maxLength: int, a: string, b: string, c: string)
    requires RawParts(text, maxLength) == [a, b, c]
    ensures SplitTextIntoParts(text, maxLength) == [Strip(a), Strip(b), Strip(c)]
  {
  }

  lemma ThreeSentencesStrips()
    ensures Strip("Hello world.") == "Hello world."
    ensures Strip(" This is a test.") == "This is a test."
    ensures Strip(" Short..") == "Short.."
  {
    LeadingBlank(" This is a test.");
    LeadingBlank(" Short..");
    StripTrimmed("Hello world.");
  }

  lemma ThreeSentencesRaw()
    ensures RawParts("Hello world. This is a test. Short.", 20) == ["Hello world.", " This is a test.", " Short.."]
  {
    ThreeSentencesFragments();
    ThreeSentencesPack();
  }

  /** One leading blank and a '.' at the end: `strip` drops just the blank. */
  lemma LeadingBlank(s: string)
    requires |s| >= 2 && s[0] == ' ' && !IsSpace(s[1]) && s[|s| - 1] == '.'
    ensures Strip(s) == s[1..]
  {
    assert SpanStart(s, 1) == 1;
    assert SpanStart(s, 0) == 1;
    assert SpanEnd(s, 1, |s|) == |s|;
  }

  lemma ThreeSentencesFragments()
    ensures Split("Hello world. This is a test. Short.", '.') == ["Hello world", " This is a test", " Short", ""]
  {
    ThreeSentencesJoin();
    ThreeSentencesNoDot();
    SplitJoin(["Hello world", " This is a test", " Short", ""], '.');
  }

  lemma ThreeSentencesNoDot()
    ensures forall k :: 0 <= k < 4 ==> '.' !in ["Hello world", " This is a test", " Short", ""][k]
  {
  }

  lemma ThreeSentencesJoin()
    ensures Join(["Hello world", " This is a test", " Short", ""], '.') == "Hello world. This is a test. Short."
  {
    ThreeSentencesJoinTail();
    JoinStep("Hello world", [" This is a test", " Short", ""], " This is a test. Short.", "Hello world. This is a test. Short.");
  }

  lemma ThreeSentencesJoinTail()
    ensures Join([" This is a test", " Short", ""], '.') == " This is a test. Short."
  {
    ThreeSentencesJoinLast();
    JoinStep(" This is a test", [" Short", ""], " Short.", " This is a test. Short.");
  }

  lemma ThreeSentencesJoinLast()
    ensures Join([" Short", ""], '.') == " Short."
  {
    JoinStep(" Short", [""], "", " Short.");
  }

  /** One step of a '.'-join, for worked examples. */
  lemma JoinStep(head: string, tail: seq<string>, joinedTail: string, joined: string)
    requires tail != [] && Join(tail, '.') == joinedTail
    requires joined == head + "." + joinedTail
    ensures Join([head] + tail, '.') == joined
  {
    JoinCons(head, tail, '.');
  }

  lemma ThreeSentencesPack()
    ensures Pack(["Hello world", " This is a test", " Short", ""], 20, "")
         == ["Hello world.", " This is a test.", " Short.."]
  {
    var fragments := ["Hello world", " This is a test", " Short", ""];
    assert "" + "Hello world" + "." == "Hello world.";
    assert " Short." + "" + "." == " Short..";
    assert " This is a test" + "." == " This is a test.";
    assert " Short" + "." == " Short.";
    assert fragments[1..][1..] == fragments[2..] && fragments[2..][1..] == fragments[3..] && fragments[3..][1..] == [];
    assert Pack(fragments[3..], 20, " Short.") == [" Short.."];
    assert Pack(fragments[2..], 20, " This is a test.") == [" This is a test."] + Pack(fragments[3..], 20, " Short.");
    assert Pack(fragments[1..], 20, "Hello world.") == ["Hello world."] + Pack(fragments[2..], 20, " This is a test.");
    assert Pack(fragments, 20, "") == Pack(fragments[1..], 20, "Hello world.");
  }
}
